=== FILE: README.md ===
# iito in Dafny

iito is a small daemon that reflects boolean inputs onto LEDs. Inputs are
the builtin `true`, filesystem paths (present or absent) and udev devices
(present or absent, or one of their sysfs attributes). Each output has an
ordered list of rules. A rule names an input reference (`name[:prop]`,
optionally prefixed with `!` to invert it) and a payload saying what to
show. Whenever an input changes, every output that reads it is updated:
the first rule whose input reads true (after the optional inversion) is
applied, and when none does, the output's default state is applied.

This project models that core as pure functions over immutable values:

- `Base` (base.dfy): `Option`, `Result` with a non-zero status, the errno
  values the daemon returns, and the C `int` conversion.
- `Json` (json.dfy): the configuration tree and the `json_unpack` formats
  the daemon uses.
- `Format` (format.dfy): `printf("%d")` text and reading it back.
- `Uddev` (uddev.dfy): device presence, the sysname event filter, snapshot
  replacement, presence-guarded attribute writes, and `uddev_init`.
- `InPath` (in_path.dfy) and `InUdev` (in_udev.dfy): the two sample
  functions and their option defaults.
- `Loops` (loops.dfy): the loops with early exit that probing is built
  from, i.e. converting the rules of an array, registering the instances of a
  driver, and going through the drivers of a configuration section.
- `Inputs` (inputs.dfy): the append-only input registry, reference
  resolution with its prefix match, and input probing.
- `Engine` (engine.dfy): the reflection engine, i.e. `out_update_one` and
  `out_update`. It is generic over the driver's rule data and takes
  sampling and applying as parameters.
- `Led` (led.dfy): the LED driver's payload decoding, its two ordered
  writes, and its probe.
- `OutProbe` (out_probe.dfy): rule parsing, output probing and driver
  lookup.
- `Reactor` (reactor.dfy): the two watcher callbacks. Each one changes an
  input and then updates the outputs that read it.

The world is a set of parameters:

- the link count a path's `stat` reports;
- udev's view of the devices and the events its monitor delivers;
- what the LED's `max_brightness` file holds, and whether its files open;
- whether the kernel accepts each write.

Nothing changes while one update runs, so sampling is a function.

Two details of the code shape what the model promises:

- `in_dev_find` matches by prefix: it compares with `strncmp` over the
  length of the name part, so the name part need not equal a device name.
  "door" resolves to a "doorbell" registered earlier, and the empty name
  resolves to the first device (`Inputs.PrefixShadowing`,
  `Inputs.EmptyNameFindsFirst`).
- `uddev_set_sysfs` returns -EINVAL when no device is present, and writes
  nothing (`Uddev.SetSysfs`).

## Model

| member | source | states |
|---|---|---|
| Base.ToInt32 | src/out-led.c:67-68 | storing a JSON integer into a C `int` leaves 32-bit values unchanged and is congruent modulo 2^32 otherwise |
| Json.GetMember | src/out.c:156-158 | "{s:o}" succeeds exactly on an object having a member of that name, and the value found is one of that name's members |
| Json.GetString | src/out.c:135-139 | "{s:s}" succeeds exactly when the member exists and is a string, and yields that string |
| Json.GetBool | src/out-led.c:65-66 | "{s:b}" succeeds exactly when the member is `true` or `false`, and yields it |
| Json.GetInt | src/out-led.c:67-68 | "{s:i}" succeeds exactly when the member is an integer, and yields it converted to `int` |
| Format.DecimalRoundTrip | src/out-led.c:37 | the "%d" text written for a brightness reads back as exactly that number, negative ones included |
| Uddev.Present | src/uddev.c:13-25 | a device is present when it has a snapshot whose action is not "remove" (none counts as present) |
| Uddev.SetSysfs | src/uddev.c:27-45 | absent device: no write, -EINVAL; present device: one write of the value cut to the 256-byte buffer: a shorter value whole, a longer one as exactly its first 255 characters; the library's status is returned |
| Uddev.SetSysfsRewrite | src/uddev.c:27-45 | what was written fits the buffer, so writing it again to a present device writes it unchanged |
| Uddev.OnEvent | src/uddev.c:47-70 | a missing event or one with another sysname is ignored and the callback is not run; otherwise the callback runs on the old state and the event's device becomes the snapshot |
| Uddev.PresenceAfterEvent | src/uddev.c:13-25 | after an accepted event the device is present exactly when the event's action is not "remove", whatever came before |
| Uddev.Init | src/uddev.c:84-129 | any udev setup failure is -ENOSYS; a device missing at start-up is no error and starts absent, a found one starts present with its attributes |
| InPath.PathSample | src/in-path.c:16-32 | no property or "present": true iff the link count is non-zero; "absent": true iff it is zero; any other property: -EINVAL |
| InPath.PresentAbsentDisagree | src/in-path.c:20-28 | "present" and "absent" always read opposite values; no property reads like "present" |
| InPath.WatchedPath | src/in-path.c:46-48 | the watched path is the "path" string option, or the instance name when it is missing or not a string |
| InUdev.UdevSample | src/in-udev.c:18-54 | absent: false; present with no property: true; with a property: true iff the attribute exists and is not "0" |
| InUdev.RemovedReadsFalse | src/in-udev.c:23-26 | a device whose last event was "remove" reads false for every property, whatever attributes its snapshot still has |
| InUdev.UdevOptions | src/in-udev.c:74-82 | "subsystem" is required (else the unpack failure); "sysname" defaults to the instance name |
| Inputs.SampleInput | src/in.c:3-7 | the builtin reads true for every property; only a path input can fail to sample, and only with -EINVAL |
| Inputs.Add | src/in.c:47-56 | the registry grows by exactly one device at the end; earlier entries keep their indices |
| Inputs.Split | src/in.c:30-34 | the reference splits at the first ':'; the property is everything after it, and there is none without ':' |
| Inputs.SplitJoin | src/in.c:30-34 | a colon-free name joined to a property with ':' splits back into that name and property |
| Inputs.FirstPrefixed | src/in.c:36-41 | finds the lowest index whose device name starts with the name part, or reports that none does |
| Inputs.Find | src/in.c:24-45 | the property is set from the reference (left as it was without ':'); on failure the status is -ENODEV and the device is left as it was |
| Inputs.FindFirstPrefixed | src/in.c:36-44 | resolution succeeds iff some registered name starts with the name part, and then picks the first such device |
| Inputs.FindStableUnderAdd | src/in.c:47-56 | registering more devices never changes what an already resolvable reference resolves to |
| Inputs.FindOwnName | src/in.c:36-41 | a device is found under its own name unless an earlier name starts with it |
| Inputs.PrefixShadowing | src/in.c:37 | "door" resolves to an earlier "doorbell", and a device named "t" is shadowed by "true" |
| Inputs.EmptyNameFindsFirst | src/in.c:36-41 | an empty name part resolves to device 0 |
| Inputs.TrueCapturesItsPrefixes | src/in.c:9-41 | with the builtin at index 0, any name part that is a prefix of "true" resolves to the builtin |
| Inputs.InDriverByName | src/in.c:58-82 | the driver table knows "path" and "udev" and nothing else |
| Inputs.InstanceDev | src/in-path.c:34-55 | a path instance always builds a device watching its "path" option (or its name) with the link count found there |
| Inputs.ProbeInstance | src/in-udev.c:56-97 | one device registered under the instance name, or a failure with nothing registered; without "subsystem" the unpack failure; otherwise success iff udev can be set up, the device then watching the configured subsystem and sysname (the name by default), and failure -ENOSYS |
| Inputs.ProbeInstances | src/in.c:84-93 | instances are registered in configuration order, each as its driver built it, until the first failure, whose status is returned; success registers every instance |
| Inputs.ProbeInstancesStep | src/in.c:84-93 | one turn of the loop is `ProbeInstance` on the first instance, and the rest are probed on the registry it leaves unless it failed |
| Inputs.ProbeDriver | src/in.c:68-96 | an unknown driver name is -ENODEV with nothing registered; a known one probes its instances |
| Inputs.DriverStepRegisters | src/in.c:68-96 | a known driver's probe succeeds iff every one of its instances builds, and then appends them in order |
| Inputs.ProbeDrivers | src/in.c:106-110 | success iff every driver is known and every configured instance builds, and then exactly those devices are appended in driver-then-instance order; a failure is the first failing driver's outcome on what the drivers before it registered |
| Inputs.DriversOutcome | src/in.c:106-110 | the generic driver loop over the "input" section succeeds iff every driver is known and every instance builds, appends them in order, and otherwise stops at the first failing driver |
| Inputs.InProbe | src/in.c:98-114 | the builtin `true` is device 0 whatever the configuration; success iff every driver is known and every instance builds, and then the built devices follow the builtin in driver-then-instance order |
| Inputs.KeepsTrue | src/in.c:104-110 | whatever the drivers register or however they fail, the builtin stays device 0 |
| Inputs.SectionBuilt | src/in.c:106-113 | after a successful probe, the device right after the ones already there for configured instance k carries that instance's name and is what its driver built |
| Engine.Uses | src/out.c:37-48 | an output uses an input when some rule of it reads that input |
| Engine.Selected | src/out.c:109-111 | with no filter every output is updated, with a filter only those that use it |
| Engine.AddOutput | src/out.c:26-35 | a registered output goes after all earlier ones, which are unchanged |
| Engine.InvertMatchesFalse | src/out.c:68 | an inverted rule matches exactly when its input reads false, a plain one when it reads true |
| Engine.Scan | src/out.c:59-84 | the scan stops at the first rule that matches or fails to sample, every earlier rule having sampled and missed; if it never stops, every rule missed |
| Engine.ScanDecides | src/out.c:59-84 | any decision fitting that description is the scan's result |
| Engine.UpdateOne | src/out.c:50-96 | name and rules never change; any error leaves the output unchanged; a sampling error is returned as it is; success records the matched rule, or none for the default |
| Engine.UpdateOneAppliesFirstHit | src/out.c:59-84 | the lowest-index matching rule is applied after sampling exactly the rules up to it; later rules are never sampled; it becomes active only if the apply succeeds |
| Engine.UpdateOneDefault | src/out.c:86-95 | when every rule misses, all are sampled, the default is applied, and on success no rule is active |
| Engine.UpdateOneSampleError | src/out.c:60-66 | a sampling failure before any match returns that status at once, applies nothing and changes nothing |
| Engine.FirstFailure | src/out.c:109-116 | the first selected output at or after a position whose update fails, every selected one before it succeeding |
| Engine.UpdateFromOutcome | src/out.c:109-118 | the loop succeeds iff no selected output fails, else returns the first failure's status; reached outputs are updated and all others left as they were |
| Engine.Update | src/out.c:98-119 | success iff no selected output fails; a failure returns the status of the first selected output that fails; outputs up to the first failure that the filter selects are updated, all others untouched |
| Engine.UpdateOneIgnoresActive | src/out.c:50-96 | the previously active rule plays no part: status and events depend on the rules alone |
| Engine.FirstFailureIgnoresActive | src/out.c:109-116 | outputs differing only in their active rules fail at the same place |
| Engine.UpdateFromIgnoresActive | src/out.c:109-118 | outputs differing only in their active rules give the same status and events |
| Engine.UpdateIdempotent | src/out.c:98-119 | updating again with unchanged inputs re-applies the same rules and yields the same status, outputs and events |
| Engine.UpdateFromTrace | src/out.c:109-116 | every event of the loop concerns a selected output not after the first failure |
| Engine.UpdateFromTraceOrdered | src/out.c:109-116 | the loop's events come output by output in registration order |
| Engine.UpdateTrace | src/out.c:98-119 | an update's events concern only reached outputs, in registration order |
| Engine.UpdateEvents | src/out.c:109-118 | for every output, the trace holds exactly that output's own update events when it is reached, and none when it is not |
| Led.Decode | src/out-led.c:61-68 | trigger is the string "trigger" or "none"; a boolean brightness is max or 0, an integer is taken unclamped and converted to a C `int` (wrapping modulo 2^32), and anything else or nothing is max |
| Led.DecodeEncode | src/out-led.c:61-68 | a payload stating trigger and integer brightness decodes to exactly that, whatever the LED's range |
| Led.ParseRules | src/out-led.c:48-74 | parsing never fails and gives every rule, in place, its decoded payload, changing nothing else |
| Led.Apply | src/out-led.c:18-46 | the trigger line is written first; the brightness line only if that succeeded; it reads back as the brightness; any failure is -EIO and 0 means both writes succeeded |
| Led.ApplyDefaultWritesOff | src/out-led.c:20-28 | the default writes trigger "none" and then brightness "0" |
| Led.Probe | src/out-led.c:76-131 | -ENODEV unless max_brightness reads and both files open; otherwise the output to register, with the given rules in order and decoded, nothing active |
| OutProbe.ProbeRule | src/out.c:130-147 | a rule needs a string "if" and a "then" (else the unpack failure); a resolved rule reads a registered input and carries the "then" payload |
| OutProbe.BangInverts | src/out.c:135-146 | for any rule object with those members, in any order and with any others: "!ref" is ref inverted with exactly one '!' stripped; ref without a leading '!' is not inverted; either resolves exactly as ref does |
| Loops.ConvertEach | src/out.c:167-173 | a successful conversion has one element per input element, each the conversion of its counterpart |
| Loops.ConvertEachOk | src/out.c:167-177 | the list converts iff every element does |
| Loops.ConvertEachFirstError | src/out.c:167-172 | a failing list reports its first failing element's status |
| Loops.ConvertEachAppend | src/out.c:167-177 | converting two lists in a row fails with the first failure, and otherwise gives the two results concatenated |
| OutProbe.ProbeRules | src/out.c:149-178 | "rules" missing is the unpack failure, a non-array is -EINVAL, otherwise element i becomes rule i and one bad rule fails all |
| OutProbe.OutDriverByName | src/out.c:189-196 | the output driver table knows "led" and nothing else |
| OutProbe.ProbeOutInstance | src/out.c:201-213 | a rules failure is returned before the LED is touched; otherwise the LED probe's outcome, its rules reading registered inputs |
| Loops.RegisterEach | src/out.c:198-214 | one output appended per successful instance, in order, stopping at the first failure whose status is returned |
| Loops.RegisterEachConverts | src/in.c:84-95 | the registration loop succeeds iff every instance probes, and then appends all of them in order; otherwise it returns the first failure's status |
| Loops.ProbeEach | src/in.c:106-110 | an empty section registers nothing and succeeds; a first group that fails is the outcome, later groups untouched |
| Loops.ProbeEachOutcome | src/in.c:106-113 | with group probes that fail on unknown drivers and otherwise append their instances, the section succeeds iff every driver is known and every instance builds, and then appends all instances group by group |
| Loops.ProbeEachFailure | src/out.c:225-229 | a failed section stopped at some group: the groups before it succeeded, and that group's probe on what they registered is the outcome |
| Loops.ProbeEachPreserves | src/out.c:225-232 | a property of the registered list that every group's probe keeps holds after the whole section |
| OutProbe.ProbeOutInstances | src/out.c:198-214 | the outputs already registered stay in front, at most one output per instance is added, and success means every instance added one |
| OutProbe.ProbeOutInstancesProbed | src/out.c:198-214 | each registered output is what its instance probed to, and a failure returns the status of the instance right after the last one registered |
| OutProbe.ProbeOutInstancesNamed | src/out.c:198-214 | each registered output carries its instance's name and reads only registered inputs |
| OutProbe.ProbeOutInstancesStep | src/out.c:198-214 | one turn of the loop probes the first instance and, unless that fails, adds its output with `Engine.AddOutput` before the rest are probed |
| OutProbe.ProbeOutInstancesResolved | src/out.c:198-214 | registering a driver's outputs keeps every rule of every output reading a registered input |
| OutProbe.ProbeOutDriver | src/out.c:180-217 | an unknown driver is -ENODEV with nothing registered; a known one probes its instances |
| OutProbe.OutDriverStepRegisters | src/out.c:180-217 | a known output driver's probe succeeds iff every one of its instances probes, and then appends them in order |
| OutProbe.ProbeOutDrivers | src/out.c:225-229 | success iff every driver is known and every configured output probes, and then exactly those outputs are appended in driver-then-instance order; a failure is the first failing driver's outcome on what the drivers before it registered |
| OutProbe.OutDriversOutcome | src/out.c:225-229 | the generic driver loop over the "output" section keeps outputs resolved, succeeds iff every driver is known and every output probes, and otherwise stops at the first failing driver |
| OutProbe.OutProbe | src/out.c:219-233 | every probed output's rules read registered inputs; on success output k is configured output k in driver-then-instance order, under its name, as it probed |
| Reactor.ProbedSystemWellFormed | src/out.c:130-147 | after probing, every rule of every output reads a registered input |
| Reactor.RegistrySampler | src/out.c:60 | a rule is sampled by its registered input's own sample function, so a sample can fail only for a path input and only with -EINVAL |
| Reactor.LedApplier | src/out-led.c:18-46 | applying a rule (or the default) to an LED output is `out_led_apply` of the rule's decoded payload (the off state for the default) with that LED's write outcomes; its status is 0 or -EIO, and 0 whenever the kernel accepts every write |
| Reactor.Refresh | src/out.c:98-119 | the outputs and events are those of the engine's update over the current inputs; only outputs change; unselected ones are untouched; names and rules are kept, so every rule still reads a registered input |
| Reactor.PathChanged | src/in-path.c:9-14 | the path input takes the new link count, and then exactly the outputs that read that input are updated with it |
| Reactor.UdevEvent | src/in-udev.c:8-16 | an unrelated or missing event changes nothing; a related one installs the new snapshot, and then exactly the outputs reading that input are updated seeing it |
| Reactor.RefreshSettles | src/out.c:98-119 | when every sample succeeds and every write is accepted, the update succeeds and each selected output gets its first matching rule or the default; that output's events are its samples up to the deciding rule followed by one apply |
| Reactor.NoFailure | src/out.c:50-96 | under the same conditions no output's own update fails |
| Reactor.PathGoneTurnsOff | src/in-path.c:9-32 | a watched path dropping to zero links turns off an LED whose rules all read its presence |
| Reactor.RemovalTurnsOff | src/in-udev.c:8-26 | a udev removal turns off an LED whose rules all read that device, non-inverted, because the update sees the new snapshot |
| Reactor.ArrivalAppliesFirstRule | src/in-udev.c:8-30 | a udev device appearing makes an LED whose first rule reads its presence apply that rule |

## Left out

- src/main.c: loading the configuration, logging setup and the event loop. Only the order probe, probe, `out_update(NULL)` matters, and `Reactor.Refresh` with no filter covers the last step.
- src/iito.h, test/uled.c, src/psu-test.c: declarations, a test program for the kernel LED driver and a debug printer, with no decision logic.
- libev and libudev mechanics: watcher setup, `uddev_start`, netlink sockets, `udev_device_ref`/`unref` reference counting, and `FILE *` handles. These are replaced by the values they deliver.
- `in_udev_probe` ignores what `uddev_start` returns, so the start-up outcome is not a parameter.
- Logging, `out_dump`, and the `assert` on allocation failure.
- `PATH_MAX` truncation of the sysfs paths built with `snprintf` in `out_led_probe`. Whether each file opens is a parameter.
- The "{s:b}" unpack of "brightness" (src/out-led.c:53,65): jansson stores an `int` through a pointer to a one-byte `bool`. That store is out of bounds and undefined behaviour, and which byte the `bool` receives depends on byte order. The model replaces it with the intended boolean.
- JSON objects with duplicate keys. The tree is taken as the parser leaves it, and a lookup finds the first member with the key.
- Inputs.ProbeInstance: the first link count of a path comes from the environment's `links` function (`InEnv.links`), and later counts are the free `links` argument of `Reactor.PathChanged`. Nothing ties the two together.
- Led.Probe: returns the output rather than calling `out_dev_add` itself. Registration is done by `Loops.RegisterEach`, so "exactly one output registered on success" is stated there.
- Uddev.SetSysfs: the cut to the 256-byte buffer (the first 255 characters of a longer value) counts characters, while `vsnprintf` counts bytes. A value longer than 255 bytes but not 255 characters (non-ASCII text) is written whole in the model and cut, possibly inside a character, by the daemon. The values written are trigger names from the configuration and decimal numbers.
- Engine.Update: sampling is a fixed function during one update. The daemon is single-threaded, so nothing can change an input in the middle of an update.
- Reactor.RegistrySampler: a rule naming an input outside the registry reads false. `Reactor.ProbedSystemWellFormed` shows probing never produces such a rule.

=== FILE: base.dfy ===
/** Shared vocabulary: optional values, fallible results, C's 32-bit `int`,
    and the Linux errno values the daemon returns (negated, as in the C code). */
module Base {

  /** Stands in for a nullable C pointer. */
  datatype Option<+T> = None | Some(value: T) {
    function GetOr(default: T): T {
      match this
      case Some(v) => v
      case None => default
    }
  }

  /** A value, or the non-zero status code the C function would have returned. */
  datatype Result<+T> = Ok(value: T) | Err(err: Errno)

  /** A non-zero C return code. */
  type Errno = e: int | e != 0 witness -1

  /** What an input's `sample` yields: the boolean state, or the non-zero
      status of a failed call (in which case no state is produced). */
  datatype Sample = Sampled(state: bool) | SampleError(err: Errno)

  const EIO: int := 5
  const ENODEV: int := 19
  const EINVAL: int := 22
  const ENOSYS: int := 38

  /** What `json_unpack` returns when the value does not have the requested shape. */
  const UNPACK_FAILED: int := -1

  /** C `int` on the daemon's targets: 32-bit two's complement. */
  type Int32 = x: int | -0x8000_0000 <= x < 0x8000_0000

  /** Conversion of a wider integer to `int` as the C compiler performs it:
      reduction modulo 2^32 into the signed range. */
  function ToInt32(x: int): (r: Int32)
    ensures -0x8000_0000 <= x < 0x8000_0000 ==> r == x
    ensures (x - r) % 0x1_0000_0000 == 0
  {
    (x + 0x8000_0000) % 0x1_0000_0000 - 0x8000_0000
  }
}

=== FILE: engine.dfy ===
/** The reflection engine (src/out.c): outputs with ordered rules, the
    first-match scan of `out_update_one`, and `out_update` over all
    registered outputs. Sampling an input and applying a rule are the
    engine's two capabilities; here they are parameters: `sample` answers for
    an input index and property, `apply` returns the status of applying a
    rule (None: the default) to the output at a given position.
    The world does not change while one update runs, so both are functions. */
module Engine {
  import opened Base
  import opened Json

  /** `struct out_rule`: the input it reads (an index into the input
      registry), whether the reading is inverted, the optional property, the
      rule's payload, and the driver's decoded form of it. */
  datatype Rule<P> = Rule(invert: bool, input: nat, prop: Option<string>, state: Json, priv: P)

  /** `struct out_dev` with its `active_rule`: None means the default state
      is the one applied (or nothing was applied yet). */
  datatype OutDev<P> = OutDev(name: string, rules: seq<Rule<P>>, active: Option<nat>)

  type Sampler = (nat, Option<string>) -> Sample
  type Applier<!P> = (nat, Option<Rule<P>>) -> int

  /** What an update does, in order: sampling rule `rule` of output `out`,
      or applying a rule (None: the default) to output `out`. */
  datatype Event = SampledRule(out: nat, rule: nat) | AppliedRule(out: nat, applied: Option<nat>)

  /** `out_dev_add`: the new output is updated after all earlier ones. */
  function AddOutput<P>(outs: seq<OutDev<P>>, o: OutDev<P>): (r: seq<OutDev<P>>)
    ensures |r| == |outs| + 1 && r[..|outs|] == outs && r[|outs|] == o
  {
    outs + [o]
  }

  /** `out_dev_uses`: some rule of the output reads input `input`. */
  predicate Uses<P>(o: OutDev<P>, input: nat)
  {
    exists i :: 0 <= i < |o.rules| && o.rules[i].input == input
  }

  /** Whether `out_update(filter)` updates the output at all. */
  predicate Selected<P>(o: OutDev<P>, filter: Option<nat>)
  {
    filter.None? || Uses(o, filter.value)
  }

  /** The match test of `out_update_one`: `state ^ invert`. */
  predicate Matches(state: bool, invert: bool)
  {
    state != invert
  }

  /** An inverted rule matches exactly when its input reads false, a plain
      one exactly when it reads true. */
  lemma InvertMatchesFalse(state: bool, invert: bool)
    ensures invert ==> (Matches(state, invert) <==> !state)
    ensures !invert ==> (Matches(state, invert) <==> state)
  {
  }

  /** The rule samples successfully and matches. */
  predicate Hits<P>(r: Rule<P>, sample: Sampler)
  {
    sample(r.input, r.prop).Sampled? && Matches(sample(r.input, r.prop).state, r.invert)
  }

  /** The rule samples successfully and does not match: the scan moves on. */
  predicate Misses<P>(r: Rule<P>, sample: Sampler)
  {
    sample(r.input, r.prop).Sampled? && !Matches(sample(r.input, r.prop).state, r.invert)
  }

  /** Where the scan over an output's rules stops. */
  datatype Decision = Match(index: nat) | Default | SampleFailed(index: nat, err: Errno)

  /** The rule loop of `out_update_one` from rule `i` on: the first rule that
      does not simply miss decides, either by matching or by failing to
      sample; when every rule misses, the default applies. */
  function Scan<P>(rules: seq<Rule<P>>, sample: Sampler, i: nat): (d: Decision)
    requires i <= |rules|
    ensures d.Match? ==> i <= d.index < |rules| && Hits(rules[d.index], sample)
    ensures d.SampleFailed? ==> i <= d.index < |rules| && sample(rules[d.index].input, rules[d.index].prop) == SampleError(d.err)
    ensures d.Match? || d.SampleFailed? ==> forall j :: i <= j < d.index ==> Misses(rules[j], sample)
    ensures d.Default? ==> forall j :: i <= j < |rules| ==> Misses(rules[j], sample)
    decreases |rules| - i
  {
    if i == |rules| then Default
    else
      match sample(rules[i].input, rules[i].prop)
      case SampleError(e) => SampleFailed(i, e)
      case Sampled(state) =>
        if Matches(state, rules[i].invert) then Match(i)
        else Scan(rules, sample, i + 1)
  }

  /** Any decision that satisfies the scan's description is the scan's
      result: the scan is determined by the samples. */
  lemma ScanDecides<P>(rules: seq<Rule<P>>, sample: Sampler, i: nat, d: Decision)
    requires i <= |rules|
    requires d.Match? ==> i <= d.index < |rules| && Hits(rules[d.index], sample)
    requires d.SampleFailed? ==> i <= d.index < |rules| && sample(rules[d.index].input, rules[d.index].prop) == SampleError(d.err)
    requires d.Match? || d.SampleFailed? ==> forall j :: i <= j < d.index ==> Misses(rules[j], sample)
    requires d.Default? ==> forall j :: i <= j < |rules| ==> Misses(rules[j], sample)
    ensures Scan(rules, sample, i) == d
  {
  }

  /** The events of sampling rules 0 .. n-1 of output `out`, in order. */
  function Samples(out: nat, n: nat): (t: seq<Event>)
    ensures |t| == n
    ensures forall j :: 0 <= j < n ==> t[j] == SampledRule(out, j)
  {
    if n == 0 then [] else Samples(out, n - 1) + [SampledRule(out, n - 1)]
  }

  /** Status, output afterwards, and events of one `out_update_one`. */
  datatype OneResult<P> = OneResult(err: int, dev: OutDev<P>, trace: seq<Event>)

  /** `out_update_one` for the output at position `k`: the scan decides;
      a sampling error is returned at once with nothing applied; otherwise
      the deciding rule (or, when every rule misses, the default) is applied,
      and `active` follows it only when the apply succeeds. On every error
      the output is unchanged. */
  function UpdateOne<P>(o: OutDev<P>, k: nat, sample: Sampler, apply: Applier<P>): (r: OneResult<P>)
    ensures r.dev.name == o.name && r.dev.rules == o.rules
    ensures r.err != 0 ==> r.dev == o
    ensures Scan(o.rules, sample, 0).SampleFailed? ==> r.err == Scan(o.rules, sample, 0).err && |r.trace| >= 1
    ensures r.err == 0 ==> r.dev.active == (if Scan(o.rules, sample, 0).Match? then Some(Scan(o.rules, sample, 0).index) else None)
    ensures forall t :: 0 <= t < |r.trace| ==> r.trace[t].out == k
  {
    match Scan(o.rules, sample, 0)
    case SampleFailed(i, e) =>
      OneResult(e, o, Samples(k, i + 1))
    case Match(i) =>
      var e := apply(k, Some(o.rules[i]));
      OneResult(e, if e == 0 then o.(active := Some(i)) else o, Samples(k, i + 1) + [AppliedRule(k, Some(i))])
    case Default =>
      var e := apply(k, None);
      OneResult(e, if e == 0 then o.(active := None) else o, Samples(k, |o.rules|) + [AppliedRule(k, None)])
  }

  /** The lowest-index rule that matches is applied, after sampling exactly
      the rules up to it in order; later rules are never sampled. The output
      records it as active exactly when the apply succeeds. */
  lemma UpdateOneAppliesFirstHit<P>(o: OutDev<P>, k: nat, sample: Sampler, apply: Applier<P>, i: nat)
    requires i < |o.rules| && Hits(o.rules[i], sample)
    requires forall j :: 0 <= j < i ==> Misses(o.rules[j], sample)
    ensures var r := UpdateOne(o, k, sample, apply);
            && r.trace == Samples(k, i + 1) + [AppliedRule(k, Some(i))]
            && r.err == apply(k, Some(o.rules[i]))
            && r.dev == if r.err == 0 then o.(active := Some(i)) else o
  {
    ScanDecides(o.rules, sample, 0, Match(i));
  }

  /** When every rule samples and none matches, all of them are sampled and
      the default is applied; the output then has no active rule. */
  lemma UpdateOneDefault<P>(o: OutDev<P>, k: nat, sample: Sampler, apply: Applier<P>)
    requires forall j :: 0 <= j < |o.rules| ==> Misses(o.rules[j], sample)
    ensures var r := UpdateOne(o, k, sample, apply);
            && r.trace == Samples(k, |o.rules|) + [AppliedRule(k, None)]
            && r.err == apply(k, None)
            && r.dev == if r.err == 0 then o.(active := None) else o
  {
    ScanDecides(o.rules, sample, 0, Default);
  }

  /** A rule that fails to sample, reached before any match, ends the update
      with the sampler's status: nothing is applied and nothing changes. */
  lemma UpdateOneSampleError<P>(o: OutDev<P>, k: nat, sample: Sampler, apply: Applier<P>, i: nat)
    requires i < |o.rules| && sample(o.rules[i].input, o.rules[i].prop).SampleError?
    requires forall j :: 0 <= j < i ==> Misses(o.rules[j], sample)
    ensures var r := UpdateOne(o, k, sample, apply);
            && r.trace == Samples(k, i + 1)
            && r.err == sample(o.rules[i].input, o.rules[i].prop).err
            && r.dev == o
  {
    ScanDecides(o.rules, sample, 0, SampleFailed(i, sample(o.rules[i].input, o.rules[i].prop).err));
  }

  /** Output `k` is selected by the filter and its update fails. */
  predicate Fails<P>(outs: seq<OutDev<P>>, filter: Option<nat>, sample: Sampler, apply: Applier<P>, k: nat)
    requires k < |outs|
  {
    Selected(outs[k], filter) && UpdateOne(outs[k], k, sample, apply).err != 0
  }

  /** The first output at or after `i` whose update fails, if any. */
  function FirstFailure<P>(outs: seq<OutDev<P>>, filter: Option<nat>, sample: Sampler, apply: Applier<P>, i: nat): (f: Option<nat>)
    requires i <= |outs|
    ensures f.Some? ==> i <= f.value < |outs| && Fails(outs, filter, sample, apply, f.value)
    ensures f.Some? ==> forall m :: i <= m < f.value ==> !Fails(outs, filter, sample, apply, m)
    ensures f.None? ==> forall m :: i <= m < |outs| ==> !Fails(outs, filter, sample, apply, m)
    decreases |outs| - i
  {
    if i == |outs| then None
    else if Fails(outs, filter, sample, apply, i) then Some(i)
    else FirstFailure(outs, filter, sample, apply, i + 1)
  }

  /** Whether output `j` is reached and updated: it is selected and no
      earlier output failed. */
  predicate Reached<P>(outs: seq<OutDev<P>>, filter: Option<nat>, sample: Sampler, apply: Applier<P>, i: nat, j: nat)
    requires i <= j < |outs|
  {
    var f := FirstFailure(outs, filter, sample, apply, i);
    Selected(outs[j], filter) && (f.None? || j <= f.value)
  }

  /** Status, outputs afterwards, and events of one `out_update`. */
  datatype UpdateResult<P> = UpdateResult(err: int, outs: seq<OutDev<P>>, trace: seq<Event>)

  /** The loop of `out_update` from output `i` on. */
  function UpdateFrom<P>(outs: seq<OutDev<P>>, filter: Option<nat>, sample: Sampler, apply: Applier<P>, i: nat): (r: UpdateResult<P>)
    requires i <= |outs|
    ensures |r.outs| == |outs|
    decreases |outs| - i
  {
    if i == |outs| then UpdateResult(0, outs, [])
    else if !Selected(outs[i], filter) then UpdateFrom(outs, filter, sample, apply, i + 1)
    else
      var one := UpdateOne(outs[i], i, sample, apply);
      if one.err != 0 then UpdateResult(one.err, outs, one.trace)
      else
        var rest := UpdateFrom(outs, filter, sample, apply, i + 1);
        UpdateResult(rest.err, rest.outs[i := one.dev], one.trace + rest.trace)
  }

  /** What the loop from output `i` on does: it succeeds exactly when no
      selected output fails, and otherwise returns the first failure's
      status; the outputs before `i` are untouched, each reached output is
      updated and every other one is left as it was. */
  lemma {:induction false} UpdateFromOutcome<P>(outs: seq<OutDev<P>>, filter: Option<nat>, sample: Sampler, apply: Applier<P>, i: nat)
    requires i <= |outs|
    ensures forall j :: 0 <= j < i ==> UpdateFrom(outs, filter, sample, apply, i).outs[j] == outs[j]
    ensures UpdateFrom(outs, filter, sample, apply, i).err == 0 <==> FirstFailure(outs, filter, sample, apply, i).None?
    ensures UpdateFrom(outs, filter, sample, apply, i).err != 0 ==>
              UpdateFrom(outs, filter, sample, apply, i).err
                == UpdateOne(outs[FirstFailure(outs, filter, sample, apply, i).value], FirstFailure(outs, filter, sample, apply, i).value, sample, apply).err
    ensures forall j :: i <= j < |outs| ==>
              UpdateFrom(outs, filter, sample, apply, i).outs[j]
                == if Reached(outs, filter, sample, apply, i, j) then UpdateOne(outs[j], j, sample, apply).dev else outs[j]
    decreases |outs| - i
  {
    if i < |outs| {
      var r := UpdateFrom(outs, filter, sample, apply, i);
      if !Selected(outs[i], filter) {
        UpdateFromOutcome(outs, filter, sample, apply, i + 1);
        ReachedStep(outs, filter, sample, apply, i);
      } else {
        var one := UpdateOne(outs[i], i, sample, apply);
        if one.err != 0 {
          assert FirstFailure(outs, filter, sample, apply, i) == Some(i);
          assert r.outs == outs;
        } else {
          UpdateFromOutcome(outs, filter, sample, apply, i + 1);
          ReachedStep(outs, filter, sample, apply, i);
          var rest := UpdateFrom(outs, filter, sample, apply, i + 1);
          assert r.outs == rest.outs[i := one.dev];
          assert Reached(outs, filter, sample, apply, i, i);
        }
      }
    }
  }

  /** `out_update(filter)`: with no filter every output is updated, with a
      filter only those having a rule that reads the filter input. Outputs
      are visited in registration order; the first failure stops the loop
      and is returned, and later outputs are left untouched. */
  function Update<P>(outs: seq<OutDev<P>>, filter: Option<nat>, sample: Sampler, apply: Applier<P>): (r: UpdateResult<P>)
    ensures |r.outs| == |outs|
    ensures r.err == 0 <==> forall j :: 0 <= j < |outs| ==> !Fails(outs, filter, sample, apply, j)
    ensures r.err == 0 <==> FirstFailure(outs, filter, sample, apply, 0).None?
    ensures r.err != 0 ==>
              r.err == UpdateOne(outs[FirstFailure(outs, filter, sample, apply, 0).value], FirstFailure(outs, filter, sample, apply, 0).value, sample, apply).err
    ensures forall j :: 0 <= j < |outs| ==>
              r.outs[j] == if Reached(outs, filter, sample, apply, 0, j) then UpdateOne(outs[j], j, sample, apply).dev else outs[j]
  {
    UpdateFromOutcome(outs, filter, sample, apply, 0);
    UpdateFrom(outs, filter, sample, apply, 0)
  }

  /** Two output lists that differ at most in which rule is active. */
  ghost predicate SameShape<P>(a: seq<OutDev<P>>, b: seq<OutDev<P>>)
  {
    |a| == |b| && forall j :: 0 <= j < |a| ==> a[j].name == b[j].name && a[j].rules == b[j].rules
  }

  /** `out_update_one` never consults the rule that was active before: the
      status and events depend on the rules alone, and a successful update
      leaves the same output whatever was active. */
  lemma UpdateOneIgnoresActive<P>(o1: OutDev<P>, o2: OutDev<P>, k: nat, sample: Sampler, apply: Applier<P>)
    requires o1.name == o2.name && o1.rules == o2.rules
    ensures UpdateOne(o1, k, sample, apply).err == UpdateOne(o2, k, sample, apply).err
    ensures UpdateOne(o1, k, sample, apply).trace == UpdateOne(o2, k, sample, apply).trace
    ensures UpdateOne(o1, k, sample, apply).err == 0 ==> UpdateOne(o1, k, sample, apply).dev == UpdateOne(o2, k, sample, apply).dev
  {
  }

  /** Outputs that differ only in their active rules fail at the same
      place. */
  lemma {:induction false} FirstFailureIgnoresActive<P>(outs1: seq<OutDev<P>>, outs2: seq<OutDev<P>>, filter: Option<nat>, sample: Sampler, apply: Applier<P>, i: nat)
    requires SameShape(outs1, outs2) && i <= |outs1|
    ensures FirstFailure(outs1, filter, sample, apply, i) == FirstFailure(outs2, filter, sample, apply, i)
    decreases |outs1| - i
  {
    if i < |outs1| {
      FirstFailureIgnoresActive(outs1, outs2, filter, sample, apply, i + 1);
      UpdateOneIgnoresActive(outs1[i], outs2[i], i, sample, apply);
      assert Selected(outs1[i], filter) == Selected(outs2[i], filter);
    }
  }

  /** The loop from output `i` on behaves the same on outputs that differ
      only in their active rules: same status and events. */
  lemma {:induction false} UpdateFromIgnoresActive<P>(outs1: seq<OutDev<P>>, outs2: seq<OutDev<P>>, filter: Option<nat>, sample: Sampler, apply: Applier<P>, i: nat)
    requires SameShape(outs1, outs2) && i <= |outs1|
    ensures UpdateFrom(outs1, filter, sample, apply, i).err == UpdateFrom(outs2, filter, sample, apply, i).err
    ensures UpdateFrom(outs1, filter, sample, apply, i).trace == UpdateFrom(outs2, filter, sample, apply, i).trace
    decreases |outs1| - i
  {
    if i < |outs1| {
      var r1 := UpdateFrom(outs1, filter, sample, apply, i);
      var r2 := UpdateFrom(outs2, filter, sample, apply, i);
      UpdateFromIgnoresActive(outs1, outs2, filter, sample, apply, i + 1);
      var rest1 := UpdateFrom(outs1, filter, sample, apply, i + 1);
      var rest2 := UpdateFrom(outs2, filter, sample, apply, i + 1);
      assert Selected(outs1[i], filter) == Selected(outs2[i], filter);
      if Selected(outs1[i], filter) {
        var one1 := UpdateOne(outs1[i], i, sample, apply);
        var one2 := UpdateOne(outs2[i], i, sample, apply);
        UpdateOneIgnoresActive(outs1[i], outs2[i], i, sample, apply);
        if one1.err != 0 {
          assert r1.err == one1.err && r1.trace == one1.trace;
          assert r2.err == one2.err && r2.trace == one2.trace;
        } else {
          assert r1.err == rest1.err && r1.trace == one1.trace + rest1.trace;
          assert r2.err == rest2.err && r2.trace == one2.trace + rest2.trace;
        }
      } else {
        assert r1 == rest1 && r2 == rest2;
      }
    }
  }

  /** Updating twice with the same inputs and the same driver behaviour is
      updating once: the second pass applies the same rules again, in the
      same order, and ends with the same status and outputs. */
  lemma UpdateIdempotent<P>(outs: seq<OutDev<P>>, filter: Option<nat>, sample: Sampler, apply: Applier<P>)
    ensures Update(Update(outs, filter, sample, apply).outs, filter, sample, apply) == Update(outs, filter, sample, apply)
  {
    var r1 := Update(outs, filter, sample, apply);
    var r2 := Update(r1.outs, filter, sample, apply);
    assert SameShape(outs, r1.outs);
    FirstFailureIgnoresActive(outs, r1.outs, filter, sample, apply, 0);
    UpdateFromIgnoresActive(outs, r1.outs, filter, sample, apply, 0);
    forall j | 0 <= j < |outs|
      ensures r2.outs[j] == r1.outs[j]
    {
      assert Selected(outs[j], filter) == Selected(r1.outs[j], filter);
      assert Reached(outs, filter, sample, apply, 0, j) == Reached(r1.outs, filter, sample, apply, 0, j);
      UpdateOneIgnoresActive(outs[j], r1.outs[j], j, sample, apply);
    }
  }

  /** The events of the loop from output `i` on concern only outputs that
      are reached. */
  lemma {:induction false} UpdateFromTrace<P>(outs: seq<OutDev<P>>, filter: Option<nat>, sample: Sampler, apply: Applier<P>, i: nat)
    requires i <= |outs|
    ensures forall t :: 0 <= t < |UpdateFrom(outs, filter, sample, apply, i).trace| ==>
              && i <= UpdateFrom(outs, filter, sample, apply, i).trace[t].out < |outs|
              && Reached(outs, filter, sample, apply, i, UpdateFrom(outs, filter, sample, apply, i).trace[t].out)
    decreases |outs| - i
  {
    if i < |outs| {
      var r := UpdateFrom(outs, filter, sample, apply, i);
      if Selected(outs[i], filter) {
        var one := UpdateOne(outs[i], i, sample, apply);
        if one.err != 0 {
          assert FirstFailure(outs, filter, sample, apply, i) == Some(i);
          assert r.trace == one.trace;
        } else {
          UpdateFromTrace(outs, filter, sample, apply, i + 1);
          ReachedStep(outs, filter, sample, apply, i);
          var rest := UpdateFrom(outs, filter, sample, apply, i + 1);
          assert r.trace == one.trace + rest.trace;
          AppendAll(one.trace, rest.trace, (e: Event) => i <= e.out < |outs| && Reached(outs, filter, sample, apply, i, e.out));
        }
      } else {
        UpdateFromTrace(outs, filter, sample, apply, i + 1);
        ReachedStep(outs, filter, sample, apply, i);
      }
    }
  }

  /** A property of every event of two traces holds of every event of the
      two together. */
  lemma AppendAll(a: seq<Event>, b: seq<Event>, p: Event -> bool)
    requires forall t :: 0 <= t < |a| ==> p(a[t])
    requires forall t :: 0 <= t < |b| ==> p(b[t])
    ensures forall t :: 0 <= t < |a + b| ==> p((a + b)[t])
  {
  }

  /** Past an output that does not fail, reaching a later output from `i`
      is the same as reaching it from `i + 1`. */
  lemma ReachedStep<P>(outs: seq<OutDev<P>>, filter: Option<nat>, sample: Sampler, apply: Applier<P>, i: nat)
    requires i < |outs| && !Fails(outs, filter, sample, apply, i)
    ensures forall j :: i < j < |outs| ==>
              (Reached(outs, filter, sample, apply, i, j) <==> Reached(outs, filter, sample, apply, i + 1, j))
  {
  }

  /** Events grouped output by output in increasing output order. */
  predicate InOutputOrder(trace: seq<Event>)
  {
    forall t :: 0 < t < |trace| ==> trace[t - 1].out <= trace[t].out
  }

  /** Events of one output followed by ordered events of later outputs are
      ordered. */
  lemma OrderedAppend(one: seq<Event>, rest: seq<Event>, i: nat)
    requires forall t :: 0 <= t < |one| ==> one[t].out == i
    requires forall t :: 0 <= t < |rest| ==> i < rest[t].out
    requires InOutputOrder(rest)
    ensures InOutputOrder(one + rest)
  {
  }

  /** The events of the loop from output `i` on come output by output, in
      registration order. */
  lemma {:induction false} UpdateFromTraceOrdered<P>(outs: seq<OutDev<P>>, filter: Option<nat>, sample: Sampler, apply: Applier<P>, i: nat)
    requires i <= |outs|
    ensures forall t :: 0 <= t < |UpdateFrom(outs, filter, sample, apply, i).trace| ==>
              i <= UpdateFrom(outs, filter, sample, apply, i).trace[t].out
    ensures InOutputOrder(UpdateFrom(outs, filter, sample, apply, i).trace)
    decreases |outs| - i
  {
    if i < |outs| {
      UpdateFromTraceOrdered(outs, filter, sample, apply, i + 1);
      if Selected(outs[i], filter) {
        var one := UpdateOne(outs[i], i, sample, apply);
        if one.err == 0 {
          var rest := UpdateFrom(outs, filter, sample, apply, i + 1);
          assert UpdateFrom(outs, filter, sample, apply, i).trace == one.trace + rest.trace;
          OrderedAppend(one.trace, rest.trace, i);
        }
      }
    }
  }

  /** The events of a trace that concern output `j`, in order. */
  function EventsOf(trace: seq<Event>, j: nat): (r: seq<Event>)
    ensures |r| <= |trace|
  {
    if |trace| == 0 then []
    else (if trace[0].out == j then [trace[0]] else []) + EventsOf(trace[1..], j)
  }

  /** Picking one output's events distributes over concatenation. */
  lemma {:induction false} EventsOfAppend(a: seq<Event>, b: seq<Event>, j: nat)
    ensures EventsOf(a + b, j) == EventsOf(a, j) + EventsOf(b, j)
    decreases |a|
  {
    if |a| == 0 {
      assert a + b == b;
    } else {
      var head := if a[0].out == j then [a[0]] else [];
      assert (a + b)[0] == a[0];
      assert (a + b)[1..] == a[1..] + b;
      EventsOfAppend(a[1..], b, j);
      assert EventsOf(a + b, j) == head + (EventsOf(a[1..], j) + EventsOf(b, j));
      assert head + (EventsOf(a[1..], j) + EventsOf(b, j)) == (head + EventsOf(a[1..], j)) + EventsOf(b, j);
    }
  }

  /** A trace all of whose events concern output `k` has exactly those
      events for `k` and none for any other output. */
  lemma {:induction false} EventsOfSingle(trace: seq<Event>, k: nat, j: nat)
    requires forall t :: 0 <= t < |trace| ==> trace[t].out == k
    ensures EventsOf(trace, j) == if j == k then trace else []
    decreases |trace|
  {
    if |trace| > 0 {
      EventsOfSingle(trace[1..], k, j);
      if j == k {
        assert [trace[0]] + trace[1..] == trace;
      }
    }
  }

  /** A trace whose events all concern outputs after `i` has none for `i`. */
  lemma {:induction false} EventsOfAbove(trace: seq<Event>, i: nat)
    requires forall t :: 0 <= t < |trace| ==> i < trace[t].out
    ensures EventsOf(trace, i) == []
    decreases |trace|
  {
    if |trace| > 0 {
      EventsOfAbove(trace[1..], i);
    }
  }

  /** The loop from output `i` on leaves, for each output from `i` on,
      exactly the events of that output's own update when it is reached, and
      none when it is not. */
  lemma {:induction false} UpdateFromEvents<P>(outs: seq<OutDev<P>>, filter: Option<nat>, sample: Sampler, apply: Applier<P>, i: nat)
    requires i <= |outs|
    ensures forall j :: i <= j < |outs| ==>
              EventsOf(UpdateFrom(outs, filter, sample, apply, i).trace, j)
                == if Reached(outs, filter, sample, apply, i, j) then UpdateOne(outs[j], j, sample, apply).trace else []
    decreases |outs| - i
  {
    if i < |outs| {
      var r := UpdateFrom(outs, filter, sample, apply, i);
      var rest := UpdateFrom(outs, filter, sample, apply, i + 1);
      UpdateFromTraceOrdered(outs, filter, sample, apply, i + 1);
      if !Selected(outs[i], filter) {
        UpdateFromEvents(outs, filter, sample, apply, i + 1);
        ReachedStep(outs, filter, sample, apply, i);
        EventsOfAbove(rest.trace, i);
      } else {
        var one := UpdateOne(outs[i], i, sample, apply);
        if one.err != 0 {
          assert FirstFailure(outs, filter, sample, apply, i) == Some(i);
          forall j | i <= j < |outs|
            ensures EventsOf(r.trace, j) == if Reached(outs, filter, sample, apply, i, j) then UpdateOne(outs[j], j, sample, apply).trace else []
          {
            EventsOfSingle(one.trace, i, j);
          }
        } else {
          UpdateFromEvents(outs, filter, sample, apply, i + 1);
          ReachedStep(outs, filter, sample, apply, i);
          forall j | i <= j < |outs|
            ensures EventsOf(r.trace, j) == if Reached(outs, filter, sample, apply, i, j) then UpdateOne(outs[j], j, sample, apply).trace else []
          {
            EventsOfAppend(one.trace, rest.trace, j);
            EventsOfSingle(one.trace, i, j);
            if j == i {
              EventsOfAbove(rest.trace, i);
              assert one.trace + [] == one.trace;
            }
          }
        }
      }
    }
  }

  /** The events of an update concern only outputs that are reached, output
      by output in registration order. */
  lemma UpdateTrace<P>(outs: seq<OutDev<P>>, filter: Option<nat>, sample: Sampler, apply: Applier<P>)
    ensures forall t :: 0 <= t < |Update(outs, filter, sample, apply).trace| ==>
              && Update(outs, filter, sample, apply).trace[t].out < |outs|
              && Reached(outs, filter, sample, apply, 0, Update(outs, filter, sample, apply).trace[t].out)
    ensures InOutputOrder(Update(outs, filter, sample, apply).trace)
  {
    UpdateFromTrace(outs, filter, sample, apply, 0);
    UpdateFromTraceOrdered(outs, filter, sample, apply, 0);
  }

  /** Every output reached by an update has all the events of its own
      update in the trace (its samples and its apply), and an output that is
      not reached has none. With `UpdateTrace` this fixes the trace: it is
      the reached outputs' own traces, one after the other. */
  lemma UpdateEvents<P>(outs: seq<OutDev<P>>, filter: Option<nat>, sample: Sampler, apply: Applier<P>)
    ensures forall j :: 0 <= j < |outs| ==>
              EventsOf(Update(outs, filter, sample, apply).trace, j)
                == if Reached(outs, filter, sample, apply, 0, j) then UpdateOne(outs[j], j, sample, apply).trace else []
  {
    UpdateFromEvents(outs, filter, sample, apply, 0);
  }
}

=== FILE: format.dfy ===
/** The decimal text `printf("%d")` produces for an integer, and the reading
    of such text back (what the kernel's sysfs handler parses). */
module Format {
  import opened Base

  predicate IsDigit(c: char) {
    '0' <= c <= '9'
  }

  function DigitChar(d: nat): (c: char)
    requires d < 10
    ensures IsDigit(c)
  {
    ['0', '1', '2', '3', '4', '5', '6', '7', '8', '9'][d]
  }

  function DigitValue(c: char): (d: nat)
    requires IsDigit(c)
    ensures d < 10 && DigitChar(d) == c
  {
    (c as int - '0' as int) as nat
  }

  /** Decimal digits of a natural number, most significant first, no leading zeros. */
  function NatText(n: nat): (s: string)
    ensures |s| >= 1
    ensures forall k :: 0 <= k < |s| ==> IsDigit(s[k])
    ensures |s| > 1 ==> s[0] != '0'
    decreases n
  {
    if n < 10 then [DigitChar(n)] else NatText(n / 10) + [DigitChar(n % 10)]
  }

  /** `printf("%d", n)`. */
  function Decimal(n: int): (s: string)
    ensures |s| >= 1
    ensures n < 0 <==> s[0] == '-'
  {
    if n < 0 then "-" + NatText(-n) else NatText(n)
  }

  /** The value of a non-empty string of decimal digits. */
  function ParseNat(s: string): (r: Option<nat>)
    ensures r.Some? <==> |s| >= 1 && forall k :: 0 <= k < |s| ==> IsDigit(s[k])
  {
    if |s| == 0 then None
    else if !IsDigit(s[|s| - 1]) then None
    else if |s| == 1 then Some(DigitValue(s[0]))
    else match ParseNat(s[..|s| - 1])
      case None => None
      case Some(v) => Some(v * 10 + DigitValue(s[|s| - 1]))
  }

  /** The value of an optionally negative decimal numeral. */
  function ParseInt(s: string): Option<int>
  {
    if |s| >= 1 && s[0] == '-' then
      match ParseNat(s[1..])
      case None => None
      case Some(v) => Some(-(v as int))
    else
      match ParseNat(s)
      case None => None
      case Some(v) => Some(v as int)
  }

  lemma {:induction false} ParseNatText(n: nat)
    ensures ParseNat(NatText(n)) == Some(n)
    decreases n
  {
    if n >= 10 {
      var s := NatText(n);
      var prefix := NatText(n / 10);
      assert s == prefix + [DigitChar(n % 10)];
      assert s[..|s| - 1] == prefix;
      ParseNatText(n / 10);
    }
  }

  /** Reading back what `printf("%d")` wrote gives the number written. */
  lemma DecimalRoundTrip(n: int)
    ensures ParseInt(Decimal(n)) == Some(n)
  {
    var s := Decimal(n);
    if n < 0 {
      assert s == "-" + NatText(-n);
      assert s[1..] == NatText(-n);
      ParseNatText(-n);
    } else {
      assert s == NatText(n);
      assert IsDigit(s[0]);
      ParseNatText(n);
    }
  }
}

=== FILE: in_path.dfy ===
/** The path input (src/in-path.c): a filesystem path watched with a stat
    watcher, sampled through the link count of its last stat (0 when the
    path does not exist). */
module InPath {
  import opened Base
  import opened Json

  /** `in_path_sample` on a stat result with `links` hard links. */
  function PathSample(links: nat, prop: Option<string>): (r: Sample)
    ensures r.SampleError? <==> prop.Some? && prop.value != "present" && prop.value != "absent"
    ensures r.SampleError? ==> r.err == -EINVAL
    ensures r.Sampled? && prop != Some("absent") ==> (r.state <==> links != 0)
    ensures r.Sampled? && prop == Some("absent") ==> (r.state <==> links == 0)
  {
    if prop.None? || prop.value == "present" then Sampled(links != 0)
    else if prop.value == "absent" then Sampled(links == 0)
    else SampleError(-EINVAL)
  }

  /** "present" and "absent" always disagree, and no property at all means
      "present". */
  lemma PresentAbsentDisagree(links: nat)
    ensures PathSample(links, Some("present")).Sampled?
    ensures PathSample(links, Some("absent")).Sampled?
    ensures PathSample(links, Some("present")).state != PathSample(links, Some("absent")).state
    ensures PathSample(links, None) == PathSample(links, Some("present"))
  {
  }

  /** The watched path configured by `in_path_probe`: the "path" option when
      it is a string, otherwise the instance name itself. */
  function WatchedPath(name: string, data: Json): (path: string)
    ensures GetString(data, "path").None? ==> path == name
    ensures GetString(data, "path").Some? ==> Get(data, "path") == Some(JStr(path))
  {
    GetString(data, "path").GetOr(name)
  }
}

=== FILE: in_udev.dfy ===
/** The udev input (src/in-udev.c): a boolean read off a udev device's
    presence, or off one of its sysfs attributes. */
module InUdev {
  import opened Base
  import opened Json
  import opened Uddev

  /** `in_udev_sample`. It cannot fail, so the state is returned directly:
      an absent device is false for every property, a present one is true
      when no property is asked for, and otherwise the attribute is true
      exactly when it exists and is not the text "0" ("1" and every other
      value, the empty string included, read as true). */
  function UdevSample(u: Uddev, prop: Option<string>): (state: bool)
    ensures !Present(u) ==> !state
    ensures Present(u) && prop.None? ==> state
    ensures Present(u) && prop.Some? ==>
              (state <==> prop.value in u.dev.value.attrs && u.dev.value.attrs[prop.value] != "0")
  {
    if !Present(u) then false
    else if prop.None? then true
    else if prop.value !in u.dev.value.attrs then false
    else
      var val := u.dev.value.attrs[prop.value];
      if val == "0" then false
      else if val == "1" then true
      else true
  }

  /** A removed device reads as false whatever attribute values its last
      snapshot still carries. */
  lemma RemovedReadsFalse(u: Uddev, prop: Option<string>)
    requires u.dev.Some? && u.dev.value.action == Some("remove")
    ensures !UdevSample(u, prop)
  {
  }

  /** The options `in_udev_probe` reads: "subsystem" is required (a missing
      or non-string value is the unpack failure), "sysname" defaults to the
      instance name. */
  function UdevOptions(name: string, data: Json): (r: Result<(string, string)>)
    ensures r.Err? <==> GetString(data, "subsystem").None?
    ensures r.Err? ==> r.err == UNPACK_FAILED
    ensures r.Ok? ==> Get(data, "subsystem") == Some(JStr(r.value.0))
    ensures r.Ok? && GetString(data, "sysname").None? ==> r.value.1 == name
    ensures r.Ok? && GetString(data, "sysname").Some? ==> Get(data, "sysname") == Some(JStr(r.value.1))
  {
    match GetString(data, "subsystem")
    case None => Err(UNPACK_FAILED)
    case Some(subsystem) => Ok((subsystem, GetString(data, "sysname").GetOr(name)))
  }
}

=== FILE: inputs.dfy ===
/** The input registry (src/in.c): the append-only list of input devices,
    the builtin `true` input, resolution of `name[:prop]` references, and the
    probing of configured inputs, including the per-driver probe steps of
    src/in-path.c and src/in-udev.c. */
module Inputs {
  import opened Base
  import opened Json
  import opened Uddev
  import opened InPath
  import opened InUdev
  import opened Loops

  /** The input variants and the state each one samples. */
  datatype InKind =
    | TrueIn
    | PathIn(path: string, links: nat)
    | UdevIn(mon: Uddev)

  /** `struct in_dev` together with its driver's private state. */
  datatype InDev = InDev(name: string, kind: InKind)

  /** The global input list, in registration order. Rules refer to inputs by
      their index in it. */
  type Registry = seq<InDev>

  /** The builtin input created by `in_true_probe`. */
  const TrueDev: InDev := InDev("true", TrueIn)

  /** The `sample` hook of an input. The builtin `true` input is true for
      every property; only the path input can fail, and only with -EINVAL. */
  function SampleInput(d: InDev, prop: Option<string>): (r: Sample)
    ensures d.kind.TrueIn? ==> r == Sampled(true)
    ensures d.kind.PathIn? ==> r == PathSample(d.kind.links, prop)
    ensures d.kind.UdevIn? ==> r == Sampled(UdevSample(d.kind.mon, prop))
    ensures r.SampleError? ==> d.kind.PathIn? && r.err == -EINVAL
  {
    match d.kind
    case TrueIn => Sampled(true)
    case PathIn(_, links) => PathSample(links, prop)
    case UdevIn(mon) => Sampled(UdevSample(mon, prop))
  }

  /** `in_dev_add`: one more device at the end; every earlier entry keeps its
      index. */
  function Add(reg: Registry, d: InDev): (r: Registry)
    ensures |r| == |reg| + 1
    ensures r[..|reg|] == reg && r[|reg|] == d
  {
    reg + [d]
  }

  /** Index of the first ':' in `s`, or |s| when there is none. */
  function ColonAt(s: string): (k: nat)
    ensures k <= |s|
    ensures forall j :: 0 <= j < k ==> s[j] != ':'
    ensures k < |s| ==> s[k] == ':'
  {
    if |s| == 0 || s[0] == ':' then 0 else 1 + ColonAt(s[1..])
  }

  /** How `in_dev_find` splits a reference at its first ':' into a name part
      and, when there is a ':', the property after it. */
  function Split(ref: string): (r: (string, Option<string>))
    ensures r.1.None? <==> ':' !in ref
    ensures r.1.None? ==> r.0 == ref
    ensures r.1.Some? ==> ref == r.0 + ":" + r.1.value
    ensures ':' !in r.0
  {
    var k := ColonAt(ref);
    if k == |ref| then
      assert ref[..k] == ref;
      (ref, None)
    else
      assert ref == ref[..k] + ":" + ref[k + 1..];
      (ref[..k], Some(ref[k + 1..]))
  }

  /** Joining a colon-free name and any property with ':' and splitting again
      gives both back; the property may itself contain ':'. */
  lemma SplitJoin(name: string, prop: string)
    requires ':' !in name
    ensures Split(name + ":" + prop) == (name, Some(prop))
  {
    var ref := name + ":" + prop;
    var r := Split(ref);
    assert ref[|name|] == ':';
    assert r.0 == ref[..|r.0|] == name;
    assert r.1.value == ref[|name| + 1..] == prop;
  }

  /** `strncmp(prefix, name, |prefix|) == 0` for strings without NUL bytes. */
  predicate IsPrefix(prefix: string, name: string)
  {
    |prefix| <= |name| && name[..|prefix|] == prefix
  }

  /** The first index at or after `i` whose device name starts with `name`. */
  function FirstPrefixed(reg: Registry, name: string, i: nat): (r: Option<nat>)
    requires i <= |reg|
    ensures r.Some? ==> i <= r.value < |reg| && IsPrefix(name, reg[r.value].name)
    ensures r.Some? ==> forall j :: i <= j < r.value ==> !IsPrefix(name, reg[j].name)
    ensures r.None? ==> forall j :: i <= j < |reg| ==> !IsPrefix(name, reg[j].name)
    decreases |reg| - i
  {
    if i == |reg| then None
    else if IsPrefix(name, reg[i].name) then Some(i)
    else FirstPrefixed(reg, name, i + 1)
  }

  /** The status of `in_dev_find` and its two out-parameters afterwards. */
  datatype Found = Found(err: int, dev: Option<nat>, prop: Option<string>)

  /** `in_dev_find(ref, &dev, &prop)` with the out-parameters holding `dev0`
      and `prop0` beforehand. The property is everything after the first ':'
      (set even when no device matches); without ':' it is left as it was.
      The device is the first registered one whose name STARTS WITH the name
      part, not one whose name equals it; when none does, the result is
      -ENODEV and the device is left as it was. */
  function Find(reg: Registry, ref: string, dev0: Option<nat>, prop0: Option<string>): (r: Found)
    ensures ':' in ref ==> r.prop == Split(ref).1
    ensures ':' !in ref ==> r.prop == prop0
    ensures r.err != 0 ==> r.err == -ENODEV && r.dev == dev0
    ensures r.err == 0 ==> r.dev.Some? && r.dev.value < |reg|
  {
    var (name, prop) := Split(ref);
    var prop' := if prop.Some? then prop else prop0;
    match FirstPrefixed(reg, name, 0)
    case Some(i) => Found(0, Some(i), prop')
    case None => Found(-ENODEV, dev0, prop')
  }

  /** What `in_dev_find` resolves to: it succeeds exactly when some
      registered name starts with the reference's name part, and then the
      device is the first such one. */
  lemma FindFirstPrefixed(reg: Registry, ref: string, dev0: Option<nat>, prop0: Option<string>)
    ensures Find(reg, ref, dev0, prop0).err == 0 <==>
              exists j :: 0 <= j < |reg| && IsPrefix(Split(ref).0, reg[j].name)
    ensures Find(reg, ref, dev0, prop0).err == 0 ==>
              && IsPrefix(Split(ref).0, reg[Find(reg, ref, dev0, prop0).dev.value].name)
              && forall j :: 0 <= j < Find(reg, ref, dev0, prop0).dev.value ==> !IsPrefix(Split(ref).0, reg[j].name)
  {
  }

  /** Registration only appends, so a reference that resolved keeps resolving
      to the same device. */
  lemma FindStableUnderAdd(reg: Registry, d: InDev, ref: string, dev0: Option<nat>, prop0: Option<string>)
    requires Find(reg, ref, dev0, prop0).err == 0
    ensures Find(Add(reg, d), ref, dev0, prop0) == Find(reg, ref, dev0, prop0)
  {
  }

  /** A device is found under its own name when no earlier device's name
      starts with it. */
  lemma FindOwnName(reg: Registry, i: nat, dev0: Option<nat>, prop0: Option<string>)
    requires i < |reg| && ':' !in reg[i].name
    requires forall j :: 0 <= j < i ==> !IsPrefix(reg[i].name, reg[j].name)
    ensures Find(reg, reg[i].name, dev0, prop0) == Found(0, Some(i), prop0)
  {
  }

  /** The prefix match lets an earlier device shadow a later one: with
      "doorbell" registered before "door", the reference "door" resolves to
      "doorbell", and a device named "t" is never reachable because "true"
      comes first. */
  lemma PrefixShadowing()
    ensures Find([TrueDev, InDev("doorbell", TrueIn), InDev("door", TrueIn)], "door", None, None)
            == Found(0, Some(1), None)
    ensures Find([TrueDev, InDev("t", TrueIn)], "t", None, None) == Found(0, Some(0), None)
  {
    var reg := [TrueDev, InDev("doorbell", TrueIn), InDev("door", TrueIn)];
    assert Split("door") == ("door", None);
    assert !IsPrefix("door", reg[0].name);
    assert IsPrefix("door", reg[1].name);
    assert Split("t") == ("t", None);
    assert IsPrefix("t", TrueDev.name);
  }

  /** An empty name part (a reference that is empty or starts with ':') is
      a prefix of every name, so it resolves to the first device. */
  lemma EmptyNameFindsFirst(reg: Registry, ref: string, dev0: Option<nat>, prop0: Option<string>)
    requires |reg| >= 1 && (ref == "" || ref[0] == ':')
    ensures Find(reg, ref, dev0, prop0).err == 0
    ensures Find(reg, ref, dev0, prop0).dev == Some(0)
  {
  }

  /** In any registry that starts with the builtin, a reference whose name
      part is a prefix of "true" (the empty name included) resolves to the
      builtin. */
  lemma TrueCapturesItsPrefixes(reg: Registry, ref: string, dev0: Option<nat>, prop0: Option<string>)
    requires |reg| >= 1 && reg[0] == TrueDev
    requires IsPrefix(Split(ref).0, "true")
    ensures Find(reg, ref, dev0, prop0).err == 0
    ensures Find(reg, ref, dev0, prop0).dev == Some(0)
  {
  }

  /** The input drivers, as registered in `in_drvs`. */
  datatype InDriver = PathDriver | UdevDriver

  function InDriverName(d: InDriver): string
  {
    match d
    case PathDriver => "path"
    case UdevDriver => "udev"
  }

  /** The driver table lookup of `in_probe_drv`. */
  function InDriverByName(name: string): (r: Option<InDriver>)
    ensures r.Some? ==> InDriverName(r.value) == name
    ensures r.None? ==> forall d: InDriver :: InDriverName(d) != name
  {
    if name == "path" then Some(PathDriver)
    else if name == "udev" then Some(UdevDriver)
    else None
  }

  /** What the probe functions find in the world: the link count `stat`
      reports for a path, and udev's view of the devices. */
  datatype InEnv = InEnv(links: string -> nat, udev: UdevEnv)

  /** A probe's status and the registry afterwards. */
  datatype Probed = Probed(err: int, reg: Registry)

  /** What the probe function of one configured instance (`in_path_probe`,
      `in_udev_probe`) builds before registering it. A path instance always
      succeeds and watches its "path" option; a udev instance fails with the
      unpack failure without "subsystem" and with -ENOSYS when udev cannot be
      set up, but not when its device is missing. */
  function InstanceDev(drv: InDriver, name: string, data: Json, env: InEnv): (r: Result<InDev>)
    ensures r.Ok? ==> r.value.name == name
    ensures r.Err? ==> r.err < 0
    ensures drv == PathDriver ==> r == Ok(InDev(name, PathIn(WatchedPath(name, data), env.links(WatchedPath(name, data)))))
    ensures drv == UdevDriver && GetString(data, "subsystem").None? ==> r == Err(UNPACK_FAILED)
    ensures drv == UdevDriver && UdevOptions(name, data).Ok? ==>
              var (subsystem, sysname) := UdevOptions(name, data).value;
              && (r.Ok? <==> Init(subsystem, sysname, env.udev).Ok?)
              && (r.Ok? ==> r.value.kind == UdevIn(Init(subsystem, sysname, env.udev).value))
              && (r.Err? ==> r.err == -ENOSYS)
  {
    match drv
    case PathDriver =>
      var path := WatchedPath(name, data);
      Ok(InDev(name, PathIn(path, env.links(path))))
    case UdevDriver =>
      match UdevOptions(name, data)
      case Err(e) => Err(e)
      case Ok((subsystem, sysname)) =>
        match Init(subsystem, sysname, env.udev)
        case Err(e) => Err(e)
        case Ok(u) => Ok(InDev(name, UdevIn(u)))
  }

  /** The probe function of one configured instance, registration included:
      either it registers exactly one device under the instance name, or it
      fails and registers nothing. A udev instance watches the configured
      subsystem and the "sysname" option, or its own name without one. */
  function ProbeInstance(reg: Registry, drv: InDriver, name: string, data: Json, env: InEnv): (r: Probed)
    ensures r.err == 0 ==> |r.reg| == |reg| + 1 && r.reg[..|reg|] == reg && r.reg[|reg|].name == name
    ensures r.err != 0 ==> r.reg == reg
    ensures drv == PathDriver ==> r.err == 0
    ensures drv == PathDriver ==> r.reg[|reg|].kind == PathIn(WatchedPath(name, data), env.links(WatchedPath(name, data)))
    ensures drv == UdevDriver && GetString(data, "subsystem").None? ==> r.err == UNPACK_FAILED
    ensures drv == UdevDriver && UdevOptions(name, data).Ok? ==>
              var (subsystem, sysname) := UdevOptions(name, data).value;
              && (r.err == 0 <==> Init(subsystem, sysname, env.udev).Ok?)
              && (r.err == 0 ==> r.reg[|reg|].kind == UdevIn(Init(subsystem, sysname, env.udev).value))
              && (r.err != 0 ==> r.err == -ENOSYS)
    ensures drv == UdevDriver && r.err == 0 ==>
              && Get(data, "subsystem") == Some(JStr(r.reg[|reg|].kind.mon.subsystem))
              && r.reg[|reg|].kind.mon.sysname == GetString(data, "sysname").GetOr(name)
  {
    match InstanceDev(drv, name, data, env)
    case Err(e) => Probed(e, reg)
    case Ok(d) => Probed(0, Add(reg, d))
  }

  /** A configured instance together with its driver. */
  type Instance = (InDriver, string, Json)

  /** The instances of one driver, in configuration order. */
  function Tag(drv: InDriver, ms: seq<(string, Json)>): (r: seq<Instance>)
    ensures |r| == |ms| && forall k :: 0 <= k < |ms| ==> r[k] == (drv, ms[k].0, ms[k].1)
  {
    seq(|ms|, k requires 0 <= k < |ms| => (drv, ms[k].0, ms[k].1))
  }

  /** `InstanceDev` as a step of the registration loop. */
  function Build(env: InEnv): Instance -> Result<InDev>
  {
    (i: Instance) => InstanceDev(i.0, i.1, i.2, env)
  }

  /** The instances of one driver, probed in configuration order until the
      first failure. The devices added are those of the instances before the
      failing one, in order, each as its driver built it; the failing
      instance's status is returned. */
  function ProbeInstances(reg: Registry, drv: InDriver, ms: seq<(string, Json)>, env: InEnv): (r: Probed)
    ensures |reg| <= |r.reg| <= |reg| + |ms| && r.reg[..|reg|] == reg
    ensures forall k :: |reg| <= k < |r.reg| ==> InstanceDev(drv, ms[k - |reg|].0, ms[k - |reg|].1, env) == Ok(r.reg[k])
    ensures forall k :: |reg| <= k < |r.reg| ==> r.reg[k].name == ms[k - |reg|].0
    ensures r.err == 0 <==> |r.reg| == |reg| + |ms|
    ensures r.err != 0 ==>
              var k := |r.reg| - |reg|;
              InstanceDev(drv, ms[k].0, ms[k].1, env) == Err(r.err)
  {
    var r := RegisterEach(reg, Tag(drv, ms), Build(env));
    Probed(r.0, r.1)
  }

  /** One turn of the loop of `in_probe_drv` is `ProbeInstance`: the first
      instance is probed and registered, and the rest are probed on the
      registry it leaves, unless it failed. */
  lemma ProbeInstancesStep(reg: Registry, drv: InDriver, ms: seq<(string, Json)>, env: InEnv)
    requires |ms| > 0
    ensures ProbeInstances(reg, drv, ms, env) ==
              var p := ProbeInstance(reg, drv, ms[0].0, ms[0].1, env);
              if p.err != 0 then p else ProbeInstances(p.reg, drv, ms[1..], env)
  {
    assert Tag(drv, ms)[1..] == Tag(drv, ms[1..]);
  }

  /** `in_probe_drv`: an unknown driver name is -ENODEV with nothing
      registered; otherwise the driver's instances are probed. */
  function ProbeDriver(reg: Registry, drvname: string, devs: Json, env: InEnv): (r: Probed)
    ensures InDriverByName(drvname).None? ==> r == Probed(-ENODEV, reg)
    ensures InDriverByName(drvname).Some? ==> r == ProbeInstances(reg, InDriverByName(drvname).value, Members(devs), env)
  {
    match InDriverByName(drvname)
    case None => Probed(-ENODEV, reg)
    case Some(drv) => ProbeInstances(reg, drv, Members(devs), env)
  }

  /** Whether `in_probe_drv` knows the driver of a group of the "input"
      section. */
  predicate KnownIn(g: (string, Json))
  {
    InDriverByName(g.0).Some?
  }

  /** The instances of a group of the "input" section, tagged with its
      driver; none for an unknown driver. */
  function GroupInstances(g: (string, Json)): seq<Instance>
  {
    match InDriverByName(g.0)
    case None => []
    case Some(d) => Tag(d, Members(g.1))
  }

  /** The configured instances in probe order: drivers in configuration
      order, each driver's instances in its own configuration order. A group
      with an unknown driver contributes none; probing stops there anyway. */
  function Instances(groups: seq<(string, Json)>): seq<Instance>
  {
    Flatten(groups, KnownIn, GroupInstances)
  }

  /** `in_probe_drv` as a step of the loop over the "input" section. */
  function DriverStep(env: InEnv): (Registry, (string, Json)) -> (int, Registry)
  {
    (reg: Registry, g: (string, Json)) => var p := ProbeDriver(reg, g.0, g.1, env); (p.err, p.reg)
  }

  /** A known driver's probe succeeds exactly when each of its instances
      builds, and then registers them in order; an unknown one fails. */
  lemma DriverStepRegisters(env: InEnv)
    ensures Registers(DriverStep(env), KnownIn, GroupInstances, Build(env))
  {
    forall reg: Registry, g: (string, Json) | KnownIn(g)
      ensures DriverStep(env)(reg, g).0 == 0 <==> ConvertEach(GroupInstances(g), Build(env)).Ok?
      ensures ConvertEach(GroupInstances(g), Build(env)).Ok? ==>
                DriverStep(env)(reg, g).1 == reg + ConvertEach(GroupInstances(g), Build(env)).value
    {
      RegisterEachConverts(reg, GroupInstances(g), Build(env));
    }
  }

  /** The drivers of the "input" section, in order, until the first
      failure. Success means every driver was known and every configured
      instance built, and then exactly those devices are registered, in probe
      order. A failure is the outcome of the first driver that failed,
      started on what the drivers before it registered. */
  function ProbeDrivers(reg: Registry, groups: seq<(string, Json)>, env: InEnv): (r: Probed)
    ensures r.err == 0 <==>
              (forall g :: 0 <= g < |groups| ==> KnownIn(groups[g])) && ConvertEach(Instances(groups), Build(env)).Ok?
    ensures r.err == 0 ==> r.reg == reg + ConvertEach(Instances(groups), Build(env)).value
    ensures r.err != 0 ==>
              exists g :: 0 <= g < |groups| && ProbeEach(reg, groups[..g], DriverStep(env)).0 == 0 &&
                (r.err, r.reg) == DriverStep(env)(ProbeEach(reg, groups[..g], DriverStep(env)).1, groups[g])
  {
    DriversOutcome(reg, groups, env);
    var p := ProbeEach(reg, groups, DriverStep(env));
    Probed(p.0, p.1)
  }

  /** The driver loop of `in_probe` over the generic loop's facts: success
      is every driver known and every instance built, and a failure is the
      first failing driver's outcome. */
  lemma DriversOutcome(reg: Registry, groups: seq<(string, Json)>, env: InEnv)
    ensures var p := ProbeEach(reg, groups, DriverStep(env));
            && (p.0 == 0 <==>
                  (forall g :: 0 <= g < |groups| ==> KnownIn(groups[g])) && ConvertEach(Instances(groups), Build(env)).Ok?)
            && (p.0 == 0 ==> p.1 == reg + ConvertEach(Instances(groups), Build(env)).value)
            && (p.0 != 0 ==>
                  exists g :: 0 <= g < |groups| && ProbeEach(reg, groups[..g], DriverStep(env)).0 == 0 &&
                    p == DriverStep(env)(ProbeEach(reg, groups[..g], DriverStep(env)).1, groups[g]))
  {
    DriverStepRegisters(env);
    ProbeEachOutcome(reg, groups, DriverStep(env), KnownIn, GroupInstances, Build(env));
    if ProbeEach(reg, groups, DriverStep(env)).0 != 0 {
      ProbeEachFailure(reg, groups, DriverStep(env));
    }
  }

  /** `in_probe`: the builtin `true` is registered first, so it is always
      device 0. Success means every driver was known and every configured
      instance built, and then the devices built for the instances follow the
      builtin, in probe order (see `SectionBuilt`). */
  function InProbe(ins: Json, env: InEnv): (r: Probed)
    ensures |r.reg| >= 1 && r.reg[0] == TrueDev
    ensures r.err == 0 <==>
              (forall g :: 0 <= g < |Members(ins)| ==> KnownIn(Members(ins)[g])) &&
              ConvertEach(Instances(Members(ins)), Build(env)).Ok?
    ensures r.err == 0 ==> r.reg == [TrueDev] + ConvertEach(Instances(Members(ins)), Build(env)).value
  {
    KeepsTrue(Members(ins), env);
    ProbeDrivers([TrueDev], Members(ins), env)
  }

  /** Probing never removes the builtin from the head of the registry. */
  lemma KeepsTrue(groups: seq<(string, Json)>, env: InEnv)
    ensures |ProbeDrivers([TrueDev], groups, env).reg| >= 1 && ProbeDrivers([TrueDev], groups, env).reg[0] == TrueDev
  {
    ProbeEachPreserves([TrueDev], groups, DriverStep(env), (reg: Registry) => |reg| >= 1 && reg[0] == TrueDev);
  }

  /** After a successful probe, the device registered for configured
      instance k sits right after the devices already there, under the
      instance's name, as its driver built it. */
  lemma SectionBuilt(reg: Registry, groups: seq<(string, Json)>, env: InEnv)
    ensures var r := ProbeDrivers(reg, groups, env);
            r.err == 0 ==>
              && |r.reg| == |reg| + |Instances(groups)|
              && forall k :: 0 <= k < |Instances(groups)| ==>
                   && r.reg[|reg| + k].name == Instances(groups)[k].1
                   && InstanceDev(Instances(groups)[k].0, Instances(groups)[k].1, Instances(groups)[k].2, env) == Ok(r.reg[|reg| + k])
  {
  }
}

=== FILE: json.dfy ===
/** The configuration tree handed to the probe functions, and the handful of
    `json_unpack` formats the daemon uses on it ("{s:s}", "{s:b}", "{s:i}",
    "{s:o}") together with `json_object_foreach`. */
module Json {
  import opened Base

  /** A JSON value as the parser produces it. Objects keep their members in
      insertion order, which is the order `json_object_foreach` visits. */
  datatype Json =
    | JNull
    | JBool(b: bool)
    | JInt(i: int)
    | JReal(r: real)
    | JStr(s: string)
    | JArray(items: seq<Json>)
    | JObject(members: seq<(string, Json)>)

  /** The first member named `key` of an association list. */
  function Lookup(ms: seq<(string, Json)>, key: string): Option<Json>
  {
    if |ms| == 0 then None
    else if ms[0].0 == key then Some(ms[0].1)
    else Lookup(ms[1..], key)
  }

  /** The member found is the first one with that key; no member means no
      member has it. */
  lemma {:induction false} LookupFirst(ms: seq<(string, Json)>, key: string)
    ensures Lookup(ms, key).None? <==> forall k :: 0 <= k < |ms| ==> ms[k].0 != key
    ensures Lookup(ms, key).Some? ==>
              exists k :: 0 <= k < |ms| && ms[k] == (key, Lookup(ms, key).value)
                          && forall m :: 0 <= m < k ==> ms[m].0 != key
  {
    if |ms| > 0 && ms[0].0 != key {
      LookupFirst(ms[1..], key);
      if Lookup(ms, key).Some? {
        var k :| 0 <= k < |ms| - 1 && ms[1..][k] == (key, Lookup(ms, key).value)
                 && forall m :: 0 <= m < k ==> ms[1..][m].0 != key;
        assert ms[k + 1] == ms[1..][k];
        assert forall m :: 1 <= m < k + 1 ==> ms[m] == ms[1..][m - 1];
      } else {
        assert forall k :: 1 <= k < |ms| ==> ms[k] == ms[1..][k - 1];
      }
    }
  }

  /** Some member of `ms` is named `key`. */
  predicate HasKey(ms: seq<(string, Json)>, key: string)
  {
    exists k :: 0 <= k < |ms| && ms[k].0 == key
  }

  /** Some member of `ms` is named `key` and holds `v`. */
  predicate HasMember(ms: seq<(string, Json)>, key: string, v: Json)
  {
    exists k :: 0 <= k < |ms| && ms[k] == (key, v)
  }

  /** "{s:o}": the member `key` of an object; fails on a non-object or a
      missing key. */
  function Get(j: Json, key: string): Option<Json>
  {
    if j.JObject? then Lookup(j.members, key) else None
  }

  /** "{s:o}" succeeds exactly on an object that has a member named `key`,
      and what it finds is one of that object's `key` members. */
  lemma GetMember(j: Json, key: string)
    ensures Get(j, key).Some? <==> j.JObject? && HasKey(j.members, key)
    ensures Get(j, key).Some? ==> HasMember(j.members, key, Get(j, key).value)
  {
    if j.JObject? {
      LookupFirst(j.members, key);
    }
  }

  /** "{s:s}": the member `key`, provided it is a string. */
  function GetString(j: Json, key: string): (r: Option<string>)
    ensures r.Some? <==> Get(j, key).Some? && Get(j, key).value.JStr?
    ensures r.Some? ==> Get(j, key) == Some(JStr(r.value))
  {
    match Get(j, key)
    case Some(JStr(s)) => Some(s)
    case _ => None
  }

  /** "{s:b}": the member `key`, provided it is `true` or `false`. */
  function GetBool(j: Json, key: string): (r: Option<bool>)
    ensures r.Some? <==> Get(j, key).Some? && Get(j, key).value.JBool?
    ensures r.Some? ==> Get(j, key) == Some(JBool(r.value))
  {
    match Get(j, key)
    case Some(JBool(b)) => Some(b)
    case _ => None
  }

  /** "{s:i}": the member `key`, provided it is an integer (not a real),
      converted to a C `int`. */
  function GetInt(j: Json, key: string): (r: Option<Int32>)
    ensures r.Some? <==> Get(j, key).Some? && Get(j, key).value.JInt?
    ensures r.Some? ==> r.value == ToInt32(Get(j, key).value.i)
  {
    match Get(j, key)
    case Some(JInt(i)) => Some(ToInt32(i))
    case _ => None
  }

  /** The pairs `json_object_foreach` visits: none at all for a non-object. */
  function Members(j: Json): seq<(string, Json)>
  {
    if j.JObject? then j.members else []
  }
}

=== FILE: led.dfy ===
/** The LED output driver (src/out-led.c): decoding a rule's payload into a
    trigger and a brightness, applying one as two ordered sysfs writes, and
    probing an LED under /sys/class/leds. The open `FILE *` handles are not
    modelled; whether the kernel accepts a write is a parameter. */
module Led {
  import opened Base
  import opened Json
  import Format
  import opened Engine

  /** `struct out_led_rule`: what one rule writes. */
  datatype LedRule = LedRule(trigger: string, brightness: Int32)

  /** The state written for the default (no rule matched). */
  const Off: LedRule := LedRule("none", 0)

  /** `out_led_parse_rules` for one payload:
      - the trigger is the string member "trigger", or "none";
      - a boolean "brightness" is `maxBrightness` for true and 0 for false;
      - an integer "brightness" is taken as it is (converted to a C `int`,
        not clamped to the LED's range);
      - anything else, or no "brightness" at all, means `maxBrightness`. */
  function Decode(state: Json, maxBrightness: Int32): (r: LedRule)
    ensures GetString(state, "trigger").Some? ==> Get(state, "trigger") == Some(JStr(r.trigger))
    ensures GetString(state, "trigger").None? ==> r.trigger == "none"
    ensures Get(state, "brightness") == Some(JBool(true)) ==> r.brightness == maxBrightness
    ensures Get(state, "brightness") == Some(JBool(false)) ==> r.brightness == 0
    ensures Get(state, "brightness").Some? && Get(state, "brightness").value.JInt? ==>
              r.brightness == ToInt32(Get(state, "brightness").value.i)
    ensures Get(state, "brightness").None? ==> r.brightness == maxBrightness
    ensures Get(state, "brightness").Some? ==>
              (Get(state, "brightness").value.JBool? || Get(state, "brightness").value.JInt? || r.brightness == maxBrightness)
  {
    var trigger := GetString(state, "trigger").GetOr("none");
    var brightness :=
      match GetBool(state, "brightness")
      case Some(b) => if b then maxBrightness else 0
      case None => GetInt(state, "brightness").GetOr(maxBrightness);
    LedRule(trigger, brightness)
  }

  /** The payload that states a decoded rule explicitly. */
  function Encode(r: LedRule): Json
  {
    JObject([("trigger", JStr(r.trigger)), ("brightness", JInt(r.brightness))])
  }

  /** Decoding an explicit payload gives back exactly the rule, whatever the
      LED's range. */
  lemma DecodeEncode(r: LedRule, maxBrightness: Int32)
    ensures Decode(Encode(r), maxBrightness) == r
  {
    var ms := Encode(r).members;
    assert Get(Encode(r), "trigger") == Some(JStr(r.trigger));
    assert ms[0].0[0] != "brightness"[0];
    assert Lookup(ms[1..], "brightness") == Some(JInt(r.brightness));
    assert Get(Encode(r), "brightness") == Some(JInt(r.brightness));
  }

  /** `out_led_parse_rules`: every rule gets its decoded payload, in place;
      nothing else about the rules changes and the step never fails. */
  function ParseRules<P>(rules: seq<Rule<P>>, maxBrightness: Int32): (r: seq<Rule<LedRule>>)
    ensures |r| == |rules|
    ensures forall i :: 0 <= i < |rules| ==>
              && r[i].invert == rules[i].invert && r[i].input == rules[i].input
              && r[i].prop == rules[i].prop && r[i].state == rules[i].state
              && r[i].priv == Decode(rules[i].state, maxBrightness)
  {
    if |rules| == 0 then []
    else
      var rule := rules[0];
      [Rule(rule.invert, rule.input, rule.prop, rule.state, Decode(rule.state, maxBrightness))]
        + ParseRules(rules[1..], maxBrightness)
  }

  /** The two sysfs files an LED output holds open. */
  datatype LedFile = TriggerFile | BrightnessFile

  /** One attempted write: `fprintf` of `text` followed by `fflush`. */
  datatype Write = Write(file: LedFile, text: string)

  /** Status of an apply, and the writes attempted, in order. */
  datatype ApplyResult = ApplyResult(err: int, writes: seq<Write>)

  /** `out_led_apply`: the rule's decoded state (the "none"/0 state for the
      default) is written as the trigger line, and only if that write and
      its flush succeed, as the brightness line. Either failure is -EIO. */
  function Apply(rule: Option<LedRule>, accepts: Write -> bool): (r: ApplyResult)
    ensures 1 <= |r.writes| <= 2
    ensures r.writes[0] == Write(TriggerFile, rule.GetOr(Off).trigger + "\n")
    ensures |r.writes| == 2 <==> accepts(r.writes[0])
    ensures |r.writes| == 2 ==> r.writes[1].file == BrightnessFile
    ensures |r.writes| == 2 ==> var t := r.writes[1].text;
              |t| >= 1 && t[|t| - 1] == '\n' && Format.ParseInt(t[..|t| - 1]) == Some(rule.GetOr(Off).brightness as int)
    ensures r.err == 0 <==> forall w :: w in r.writes ==> accepts(w)
    ensures r.err != 0 ==> r.err == -EIO
  {
    var olr := rule.GetOr(Off);
    var trigger := Write(TriggerFile, olr.trigger + "\n");
    if !accepts(trigger) then ApplyResult(-EIO, [trigger])
    else
      var digits := Format.Decimal(olr.brightness);
      var brightness := Write(BrightnessFile, digits + "\n");
      assert brightness.text[..|brightness.text| - 1] == digits;
      Format.DecimalRoundTrip(olr.brightness);
      if !accepts(brightness) then ApplyResult(-EIO, [trigger, brightness])
      else ApplyResult(0, [trigger, brightness])
  }

  /** The default state written when no rule matches: trigger "none", then
      brightness 0. */
  lemma ApplyDefaultWritesOff(accepts: Write -> bool)
    requires forall w :: accepts(w)
    ensures Apply(None, accepts) == ApplyResult(0, [Write(TriggerFile, "none\n"), Write(BrightnessFile, "0\n")])
  {
    assert Format.DigitChar(0) == '0';
    assert Format.Decimal(0) == "0";
    assert Off.trigger + "\n" == "none\n";
    assert Format.Decimal(Off.brightness) + "\n" == "0\n";
  }

  /** What probing an LED finds under /sys/class/leds/<name>/: the value read
      from max_brightness (None when it cannot be opened or parsed), and
      whether trigger and brightness can be opened for writing. */
  datatype LedSysfs = LedSysfs(maxBrightness: Option<Int32>, triggerOpens: bool, brightnessOpens: bool)

  /** `out_led_probe` up to its final `out_dev_add`: when any of the three
      files is unusable the result is -ENODEV; otherwise the output to
      register, carrying the given rules in order with their payloads decoded
      against the LED's max_brightness, and no active rule yet. The caller
      appends it to the output list. */
  function Probe<P>(name: string, rules: seq<Rule<P>>, sysfs: LedSysfs): (r: Result<OutDev<LedRule>>)
    ensures r.Ok? <==> sysfs.maxBrightness.Some? && sysfs.triggerOpens && sysfs.brightnessOpens
    ensures r.Err? ==> r.err == -ENODEV
    ensures r.Ok? ==> var o := r.value;
              o.name == name && o.active.None? && |o.rules| == |rules|
              && forall i :: 0 <= i < |rules| ==>
                   && o.rules[i].input == rules[i].input && o.rules[i].invert == rules[i].invert
                   && o.rules[i].prop == rules[i].prop && o.rules[i].state == rules[i].state
                   && o.rules[i].priv == Decode(rules[i].state, sysfs.maxBrightness.value)
  {
    if sysfs.maxBrightness.None? || !sysfs.triggerOpens || !sysfs.brightnessOpens then Err(-ENODEV)
    else Ok(OutDev(name, ParseRules(rules, sysfs.maxBrightness.value), None))
  }
}

=== FILE: loops.dfy ===
/** The two loops with early exit that probing is built from: converting the
    elements of a JSON array one by one (`out_probe_rules` in src/out.c), and
    registering the instances of a driver one by one (`in_probe_drv` in
    src/in.c, `out_probe_drv` in src/out.c). Both stop at the first element
    whose step fails and return that step's status. */
module Loops {
  import opened Base

  /** Every element converted in order, stopping at the first that fails. */
  function ConvertEach<A, B>(xs: seq<A>, convert: A -> Result<B>): (r: Result<seq<B>>)
    ensures r.Ok? ==> |r.value| == |xs| && forall k :: 0 <= k < |xs| ==> convert(xs[k]) == Ok(r.value[k])
  {
    if |xs| == 0 then Ok([])
    else
      match convert(xs[0])
      case Err(e) => Err(e)
      case Ok(y) =>
        match ConvertEach(xs[1..], convert)
        case Err(e) => Err(e)
        case Ok(ys) => Ok([y] + ys)
  }

  /** The list converts exactly when every element does. */
  lemma {:induction false} ConvertEachOk<A, B>(xs: seq<A>, convert: A -> Result<B>)
    ensures ConvertEach(xs, convert).Ok? <==> forall k :: 0 <= k < |xs| ==> convert(xs[k]).Ok?
  {
    if |xs| > 0 {
      ConvertEachOk(xs[1..], convert);
      assert forall k :: 1 <= k < |xs| ==> xs[k] == xs[1..][k - 1];
    }
  }

  /** A failing list reports the status of its first failing element; every
      element before it converts. */
  lemma {:induction false} ConvertEachFirstError<A, B>(xs: seq<A>, convert: A -> Result<B>)
    requires ConvertEach(xs, convert).Err?
    ensures exists k :: 0 <= k < |xs| && convert(xs[k]) == Err(ConvertEach(xs, convert).err)
                        && forall m :: 0 <= m < k ==> convert(xs[m]).Ok?
  {
    if convert(xs[0]).Ok? {
      ConvertEachFirstError(xs[1..], convert);
      var e := ConvertEach(xs[1..], convert).err;
      var k :| 0 <= k < |xs| - 1 && convert(xs[1..][k]) == Err(e)
               && forall m :: 0 <= m < k ==> convert(xs[1..][m]).Ok?;
      assert xs[k + 1] == xs[1..][k];
      assert forall m :: 1 <= m < k + 1 ==> xs[m] == xs[1..][m - 1];
    }
  }

  /** Converting two lists one after the other: the first failure wins, and
      two successes give the concatenation. */
  lemma {:induction false} ConvertEachAppend<A, B>(xs: seq<A>, ys: seq<A>, convert: A -> Result<B>)
    ensures ConvertEach(xs + ys, convert) ==
              match ConvertEach(xs, convert)
              case Err(e) => Err(e)
              case Ok(a) =>
                match ConvertEach(ys, convert)
                case Err(e) => Err(e)
                case Ok(b) => Ok(a + b)
  {
    if |xs| == 0 {
      assert xs + ys == ys;
      if ConvertEach(ys, convert).Ok? {
        assert [] + ConvertEach(ys, convert).value == ConvertEach(ys, convert).value;
      }
    } else {
      assert (xs + ys)[0] == xs[0];
      assert (xs + ys)[1..] == xs[1..] + ys;
      ConvertEachAppend(xs[1..], ys, convert);
      match convert(xs[0])
      case Err(_) =>
      case Ok(y) =>
        match ConvertEach(xs[1..], convert)
        case Err(_) =>
        case Ok(a) =>
          match ConvertEach(ys, convert)
          case Err(_) =>
          case Ok(b) => assert [y] + (a + b) == ([y] + a) + b;
    }
  }

  /** The registration loop, for any probe step: each instance is probed in
      order and what it yields is appended before the next is probed; the
      first failure stops the loop and its status is returned. */
  function RegisterEach<M, T>(outs: seq<T>, ms: seq<M>, probe: M -> Result<T>): (r: (int, seq<T>))
    ensures |outs| <= |r.1| <= |outs| + |ms| && r.1[..|outs|] == outs
    ensures r.0 == 0 <==> |r.1| == |outs| + |ms|
    ensures forall k :: |outs| <= k < |r.1| ==> probe(ms[k - |outs|]) == Ok(r.1[k])
    ensures r.0 != 0 ==> probe(ms[|r.1| - |outs|]) == Err(r.0)
    decreases |ms|
  {
    if |ms| == 0 then (0, outs)
    else
      match probe(ms[0])
      case Err(e) => (e, outs)
      case Ok(o) =>
        var rest := RegisterEach(outs + [o], ms[1..], probe);
        assert rest.1[..|outs|] == rest.1[..|outs| + 1][..|outs|];
        rest
  }

  /** Registering is converting with the results appended: the loop succeeds
      exactly when every instance probes, and then appends all of them in
      order; otherwise it returns the status of the first that fails. */
  lemma {:induction false} RegisterEachConverts<M, T>(outs: seq<T>, ms: seq<M>, probe: M -> Result<T>)
    ensures RegisterEach(outs, ms, probe).0 == 0 <==> ConvertEach(ms, probe).Ok?
    ensures ConvertEach(ms, probe).Ok? ==> RegisterEach(outs, ms, probe).1 == outs + ConvertEach(ms, probe).value
    ensures ConvertEach(ms, probe).Err? ==> RegisterEach(outs, ms, probe).0 == ConvertEach(ms, probe).err
    decreases |ms|
  {
    if |ms| > 0 {
      match probe(ms[0])
      case Err(_) =>
      case Ok(o) =>
        RegisterEachConverts(outs + [o], ms[1..], probe);
        match ConvertEach(ms[1..], probe)
        case Err(_) =>
        case Ok(b) => AppendAssoc(outs, [o], b);
    }
  }

  lemma AppendAssoc<T>(x: seq<T>, y: seq<T>, z: seq<T>)
    ensures (x + y) + z == x + (y + z)
  {
  }

  /** The outer loop of `in_probe` and `out_probe`: each driver group is
      probed in turn on what the groups before it registered; the first
      failure stops the loop and is the outcome. */
  function ProbeEach<G, T>(reg: seq<T>, gs: seq<G>, step: (seq<T>, G) -> (int, seq<T>)): (r: (int, seq<T>))
    ensures |gs| == 0 ==> r == (0, reg)
    ensures |gs| > 0 && step(reg, gs[0]).0 != 0 ==> r == step(reg, gs[0])
    decreases |gs|
  {
    if |gs| == 0 then (0, reg)
    else
      var first := step(reg, gs[0]);
      if first.0 != 0 then first else ProbeEach(first.1, gs[1..], step)
  }

  /** The instances of the groups in order, groups that are not `known`
      contributing none. */
  function Flatten<G, I>(gs: seq<G>, known: G -> bool, expand: G -> seq<I>): seq<I>
  {
    if |gs| == 0 then []
    else (if known(gs[0]) then expand(gs[0]) else []) + Flatten(gs[1..], known, expand)
  }

  /** What one group's probe does: an unknown group fails; a known one
      succeeds exactly when each of its instances builds, and then appends
      them in order. */
  ghost predicate Registers<G(!new), I, T(!new)>(step: (seq<T>, G) -> (int, seq<T>), known: G -> bool, expand: G -> seq<I>,
                                     build: I -> Result<T>)
  {
    forall r: seq<T>, g: G ::
      && (!known(g) ==> step(r, g).0 != 0)
      && (known(g) ==> (step(r, g).0 == 0 <==> ConvertEach(expand(g), build).Ok?))
      && (known(g) && ConvertEach(expand(g), build).Ok? ==> step(r, g).1 == r + ConvertEach(expand(g), build).value)
  }

  /** With such group probes, the whole loop succeeds exactly when every
      group is known and every instance of every group builds, and then it
      registers all of them, group by group, in order. */
  lemma {:induction false} ProbeEachOutcome<G(!new), I, T(!new)>(reg: seq<T>, gs: seq<G>, step: (seq<T>, G) -> (int, seq<T>),
                                                     known: G -> bool, expand: G -> seq<I>, build: I -> Result<T>)
    requires Registers(step, known, expand, build)
    ensures ProbeEach(reg, gs, step).0 == 0 <==>
              (forall g :: 0 <= g < |gs| ==> known(gs[g])) && ConvertEach(Flatten(gs, known, expand), build).Ok?
    ensures ProbeEach(reg, gs, step).0 == 0 ==>
              ProbeEach(reg, gs, step).1 == reg + ConvertEach(Flatten(gs, known, expand), build).value
    decreases |gs|
  {
    if |gs| == 0 {
      assert reg + [] == reg;
    } else {
      assert forall g :: 1 <= g < |gs| ==> gs[g] == gs[1..][g - 1];
      if known(gs[0]) {
        var first := step(reg, gs[0]);
        var rest := Flatten(gs[1..], known, expand);
        ConvertEachAppend(expand(gs[0]), rest, build);
        if first.0 == 0 {
          ProbeEachOutcome(first.1, gs[1..], step, known, expand, build);
          if ConvertEach(rest, build).Ok? {
            AppendAssoc(reg, ConvertEach(expand(gs[0]), build).value, ConvertEach(rest, build).value);
          }
        }
      }
    }
  }

  /** A failed loop stopped at some group: every group before it probed
      successfully, and that group's probe, started on what they registered,
      is the outcome. */
  lemma {:induction false} ProbeEachFailure<G, T>(reg: seq<T>, gs: seq<G>, step: (seq<T>, G) -> (int, seq<T>))
    requires ProbeEach(reg, gs, step).0 != 0
    ensures exists g :: 0 <= g < |gs| && ProbeEach(reg, gs[..g], step).0 == 0 &&
              ProbeEach(reg, gs, step) == step(ProbeEach(reg, gs[..g], step).1, gs[g])
    decreases |gs|
  {
    var first := step(reg, gs[0]);
    if first.0 != 0 {
      assert gs[..0] == [];
    } else {
      ProbeEachFailure(first.1, gs[1..], step);
      var g :| 0 <= g < |gs| - 1 && ProbeEach(first.1, gs[1..][..g], step).0 == 0 &&
                ProbeEach(first.1, gs[1..], step) == step(ProbeEach(first.1, gs[1..][..g], step).1, gs[1..][g]);
      assert gs[..g + 1][0] == gs[0];
      assert gs[..g + 1][1..] == gs[1..][..g];
      assert gs[1..][g] == gs[g + 1];
    }
  }

  /** A property of the registered list that every group's probe keeps
      holds after the whole loop. */
  lemma {:induction false} ProbeEachPreserves<G, T>(reg: seq<T>, gs: seq<G>, step: (seq<T>, G) -> (int, seq<T>),
                                                    inv: seq<T> -> bool)
    requires forall r, g :: inv(r) ==> inv(step(r, g).1)
    requires inv(reg)
    ensures inv(ProbeEach(reg, gs, step).1)
    decreases |gs|
  {
    if |gs| > 0 && step(reg, gs[0]).0 == 0 {
      ProbeEachPreserves(step(reg, gs[0]).1, gs[1..], step, inv);
    }
  }
}

=== FILE: out_probe.dfy ===
/** Provisioning of outputs (src/out.c): turning each configured output's
    "rules" array into resolved rules, and handing them to the output
    driver's probe. */
module OutProbe {
  import opened Base
  import opened Json
  import opened Inputs
  import opened Engine
  import opened Loops
  import Led

  /** A rule as `out_probe_rule` leaves it: no driver data yet. */
  type RawRule = Rule<()>

  /** `out_probe_rule`: the rule object needs a string "if" and a "then" of
      any type (else the unpack failure). A leading '!' sets `invert` and
      exactly that one character is dropped before the rest is resolved as an
      input reference; an unresolvable reference is -ENODEV. The rule starts
      zeroed, so a reference without ':' has no property. */
  function ProbeRule(j: Json, reg: Registry): (r: Result<RawRule>)
    ensures GetString(j, "if").None? || Get(j, "then").None? ==> r == Err(UNPACK_FAILED)
    ensures r.Err? ==> r.err == UNPACK_FAILED || r.err == -ENODEV
    ensures r.Ok? ==> r.value.input < |reg| && Get(j, "then") == Some(r.value.state)
  {
    match GetString(j, "if")
    case None => Err(UNPACK_FAILED)
    case Some(text) =>
      match Get(j, "then")
      case None => Err(UNPACK_FAILED)
      case Some(payload) =>
        var invert := |text| >= 1 && text[0] == '!';
        var found := Find(reg, if invert then text[1..] else text, None, None);
        if found.err != 0 then Err(found.err)
        else Ok(Rule(invert, found.dev.value, found.prop, payload, ()))
  }

  /** "!ref" is the inverted form of whatever `ref` denotes: one '!' is
      stripped and the remainder (even one starting with '!' again) is
      resolved unchanged; "ref" without a leading '!' is not inverted. This
      holds for every rule object with those members, whatever other members
      it has and in whatever order. */
  lemma BangInverts(j: Json, reg: Registry, s: string, payload: Json)
    requires Get(j, "then") == Some(payload)
    ensures GetString(j, "if") == Some("!" + s) ==>
            var r := ProbeRule(j, reg);
            var f := Find(reg, s, None, None);
            && (r.Ok? <==> f.err == 0)
            && (r.Ok? ==> r.value == Rule(true, f.dev.value, f.prop, payload, ()))
            && (r.Err? ==> r.err == f.err)
    ensures GetString(j, "if") == Some(s) && (|s| == 0 || s[0] != '!') ==>
            var r := ProbeRule(j, reg);
            var f := Find(reg, s, None, None);
            && (r.Ok? <==> f.err == 0)
            && (r.Ok? ==> r.value == Rule(false, f.dev.value, f.prop, payload, ()))
            && (r.Err? ==> r.err == f.err)
  {
  }

  /** `out_probe_rules`: the output object needs a "rules" member (else the
      unpack failure), which must be an array (else -EINVAL); element i of
      the array becomes rule i, and one failing rule fails them all. */
  function ProbeRules(dev: Json, reg: Registry): (r: Result<seq<RawRule>>)
    ensures Get(dev, "rules").None? ==> r == Err(UNPACK_FAILED)
    ensures Get(dev, "rules").Some? && !Get(dev, "rules").value.JArray? ==> r == Err(-EINVAL)
    ensures Get(dev, "rules").Some? && Get(dev, "rules").value.JArray? ==>
              r == ConvertEach(Get(dev, "rules").value.items, j => ProbeRule(j, reg))
    ensures r.Ok? ==> forall k :: 0 <= k < |r.value| ==> r.value[k].input < |reg|
  {
    match Get(dev, "rules")
    case None => Err(UNPACK_FAILED)
    case Some(rarr) =>
      if !rarr.JArray? then Err(-EINVAL)
      else ConvertEach(rarr.items, j => ProbeRule(j, reg))
  }

  /** The output drivers, as registered in `out_drvs`. */
  datatype OutDriver = LedDriver

  function OutDriverName(d: OutDriver): string
  {
    match d
    case LedDriver => "led"
  }

  /** The driver table lookup of `out_probe_drv`. */
  function OutDriverByName(name: string): (r: Option<OutDriver>)
    ensures r.Some? ==> OutDriverName(r.value) == name
    ensures r.None? ==> forall d: OutDriver :: OutDriverName(d) != name
  {
    if name == "led" then Some(LedDriver) else None
  }

  /** A probe's status and the output list afterwards. */
  datatype OutProbed = OutProbed(err: int, outs: seq<OutDev<Led.LedRule>>)

  /** Every rule of the output reads a registered input. */
  predicate RulesResolved(o: OutDev<Led.LedRule>, reg: Registry)
  {
    forall i :: 0 <= i < |o.rules| ==> o.rules[i].input < |reg|
  }

  /** Every rule of every output reads a registered input. */
  predicate Resolved(outs: seq<OutDev<Led.LedRule>>, reg: Registry)
  {
    forall k :: 0 <= k < |outs| ==> RulesResolved(outs[k], reg)
  }

  /** One configured output: its rules are parsed first, and a failure there
      is returned before the driver is asked; then the driver probes it. The
      output it yields has the instance's name and resolved rules. */
  function ProbeOutInstance(reg: Registry, name: string, data: Json, leds: string -> Led.LedSysfs): (r: Result<OutDev<Led.LedRule>>)
    ensures r.Ok? ==> r.value.name == name && RulesResolved(r.value, reg)
    ensures ProbeRules(data, reg).Err? ==> r == Err(ProbeRules(data, reg).err)
    ensures ProbeRules(data, reg).Ok? ==> r == Led.Probe(name, ProbeRules(data, reg).value, leds(name))
  {
    match ProbeRules(data, reg)
    case Err(e) => Err(e)
    case Ok(rules) => Led.Probe(name, rules, leds(name))
  }

  /** `ProbeOutInstance` as a step of the registration loop. */
  function OutStep(reg: Registry, leds: string -> Led.LedSysfs): ((string, Json)) -> Result<OutDev<Led.LedRule>>
  {
    (m: (string, Json)) => ProbeOutInstance(reg, m.0, m.1, leds)
  }

  lemma OutStepProbes(reg: Registry, leds: string -> Led.LedSysfs)
    ensures forall m: (string, Json) :: OutStep(reg, leds)(m) == ProbeOutInstance(reg, m.0, m.1, leds)
  {
  }

  /** The instances of one output driver, in configuration order, until the
      first failure: each output probed successfully is registered
      (`out_dev_add`) before the next instance is probed, so the outputs
      added are those of the instances before the failing one, named after
      them; the failing instance's status is returned. */
  function ProbeOutInstances(reg: Registry, outs: seq<OutDev<Led.LedRule>>, ms: seq<(string, Json)>,
                             leds: string -> Led.LedSysfs): (r: OutProbed)
    ensures |outs| <= |r.outs| <= |outs| + |ms| && r.outs[..|outs|] == outs
    ensures r.err == 0 <==> |r.outs| == |outs| + |ms|
  {
    var r := RegisterEach(outs, ms, OutStep(reg, leds));
    OutProbed(r.0, r.1)
  }

  /** Each output a driver registers is what its instance probed to, and a
      failure is the status of the instance right after them. */
  lemma ProbeOutInstancesProbed(reg: Registry, outs: seq<OutDev<Led.LedRule>>, ms: seq<(string, Json)>,
                                leds: string -> Led.LedSysfs)
    ensures var r := ProbeOutInstances(reg, outs, ms, leds);
            && (forall k :: |outs| <= k < |r.outs| ==> ProbeOutInstance(reg, ms[k - |outs|].0, ms[k - |outs|].1, leds) == Ok(r.outs[k]))
            && (r.err != 0 ==> ProbeOutInstance(reg, ms[|r.outs| - |outs|].0, ms[|r.outs| - |outs|].1, leds) == Err(r.err))
  {
    OutStepProbes(reg, leds);
  }

  /** One turn of the loop of `out_probe_drv`: the first instance is probed
      and, unless that failed, its output is added (`out_dev_add`) before the
      rest are probed. */
  lemma ProbeOutInstancesStep(reg: Registry, outs: seq<OutDev<Led.LedRule>>, ms: seq<(string, Json)>,
                              leds: string -> Led.LedSysfs)
    requires |ms| > 0
    ensures ProbeOutInstances(reg, outs, ms, leds) ==
              match ProbeOutInstance(reg, ms[0].0, ms[0].1, leds)
              case Err(e) => OutProbed(e, outs)
              case Ok(o) => ProbeOutInstances(reg, AddOutput(outs, o), ms[1..], leds)
  {
    OutStepProbes(reg, leds);
  }

  /** The outputs an output driver registers are named after its instances,
      in configuration order, and every rule of theirs reads a registered
      input. */
  lemma ProbeOutInstancesNamed(reg: Registry, outs: seq<OutDev<Led.LedRule>>, ms: seq<(string, Json)>,
                               leds: string -> Led.LedSysfs)
    ensures forall k :: |outs| <= k < |ProbeOutInstances(reg, outs, ms, leds).outs| ==>
              && ProbeOutInstances(reg, outs, ms, leds).outs[k].name == ms[k - |outs|].0
              && RulesResolved(ProbeOutInstances(reg, outs, ms, leds).outs[k], reg)
  {
    ProbeOutInstancesProbed(reg, outs, ms, leds);
  }

  /** Registering a driver's outputs keeps every rule of every output
      reading a registered input. */
  lemma ProbeOutInstancesResolved(reg: Registry, outs: seq<OutDev<Led.LedRule>>, ms: seq<(string, Json)>,
                                  leds: string -> Led.LedSysfs)
    ensures Resolved(outs, reg) ==> Resolved(ProbeOutInstances(reg, outs, ms, leds).outs, reg)
  {
    var r := ProbeOutInstances(reg, outs, ms, leds);
    ProbeOutInstancesNamed(reg, outs, ms, leds);
    if Resolved(outs, reg) {
      forall k | 0 <= k < |r.outs|
        ensures RulesResolved(r.outs[k], reg)
      {
        if k < |outs| {
          assert r.outs[k] == r.outs[..|outs|][k];
        }
      }
    }
  }

  /** `out_probe_drv`: an unknown driver name is -ENODEV with nothing
      registered. */
  function ProbeOutDriver(reg: Registry, outs: seq<OutDev<Led.LedRule>>, drvname: string, devs: Json,
                          leds: string -> Led.LedSysfs): (r: OutProbed)
    ensures Resolved(outs, reg) ==> Resolved(r.outs, reg)
    ensures OutDriverByName(drvname).None? ==> r == OutProbed(-ENODEV, outs)
    ensures OutDriverByName(drvname).Some? ==> r == ProbeOutInstances(reg, outs, Members(devs), leds)
  {
    match OutDriverByName(drvname)
    case None => OutProbed(-ENODEV, outs)
    case Some(_) =>
      ProbeOutInstancesResolved(reg, outs, Members(devs), leds);
      ProbeOutInstances(reg, outs, Members(devs), leds)
  }

  /** Whether `out_probe_drv` knows the driver of a group of the "output"
      section. */
  predicate KnownOut(g: (string, Json))
  {
    OutDriverByName(g.0).Some?
  }

  /** The instances of a group of the "output" section. */
  function GroupOutputs(g: (string, Json)): seq<(string, Json)>
  {
    Members(g.1)
  }

  /** The configured outputs in probe order: drivers in configuration
      order, each driver's instances in its own configuration order. A group
      with an unknown driver contributes none; probing stops there anyway. */
  function OutInstances(groups: seq<(string, Json)>): seq<(string, Json)>
  {
    Flatten(groups, KnownOut, GroupOutputs)
  }

  /** `out_probe_drv` as a step of the loop over the "output" section. */
  function OutDriverStep(reg: Registry, leds: string -> Led.LedSysfs):
    (seq<OutDev<Led.LedRule>>, (string, Json)) -> (int, seq<OutDev<Led.LedRule>>)
  {
    (outs: seq<OutDev<Led.LedRule>>, g: (string, Json)) =>
      var p := ProbeOutDriver(reg, outs, g.0, g.1, leds); (p.err, p.outs)
  }

  /** A known output driver's probe succeeds exactly when each of its
      instances probes, and then registers them in order; an unknown one
      fails. */
  lemma OutDriverStepRegisters(reg: Registry, leds: string -> Led.LedSysfs)
    ensures Registers(OutDriverStep(reg, leds), KnownOut, GroupOutputs, OutStep(reg, leds))
  {
    forall outs: seq<OutDev<Led.LedRule>>, g: (string, Json) | KnownOut(g)
      ensures OutDriverStep(reg, leds)(outs, g).0 == 0 <==> ConvertEach(GroupOutputs(g), OutStep(reg, leds)).Ok?
      ensures ConvertEach(GroupOutputs(g), OutStep(reg, leds)).Ok? ==>
                OutDriverStep(reg, leds)(outs, g).1 == outs + ConvertEach(GroupOutputs(g), OutStep(reg, leds)).value
    {
      RegisterEachConverts(outs, GroupOutputs(g), OutStep(reg, leds));
    }
  }

  /** The drivers of the "output" section, in order, until the first
      failure. Success means every driver was known and every configured
      output probed, and then exactly those outputs are registered, in probe
      order. A failure is the outcome of the first driver that failed,
      started on what the drivers before it registered. */
  function ProbeOutDrivers(reg: Registry, outs: seq<OutDev<Led.LedRule>>, groups: seq<(string, Json)>,
                           leds: string -> Led.LedSysfs): (r: OutProbed)
    ensures Resolved(outs, reg) ==> Resolved(r.outs, reg)
    ensures r.err == 0 <==>
              (forall g :: 0 <= g < |groups| ==> KnownOut(groups[g])) &&
              ConvertEach(OutInstances(groups), OutStep(reg, leds)).Ok?
    ensures r.err == 0 ==> r.outs == outs + ConvertEach(OutInstances(groups), OutStep(reg, leds)).value
    ensures r.err != 0 ==>
              exists g :: 0 <= g < |groups| && ProbeEach(outs, groups[..g], OutDriverStep(reg, leds)).0 == 0 &&
                (r.err, r.outs) == OutDriverStep(reg, leds)(ProbeEach(outs, groups[..g], OutDriverStep(reg, leds)).1, groups[g])
  {
    OutDriversOutcome(reg, outs, groups, leds);
    var p := ProbeEach(outs, groups, OutDriverStep(reg, leds));
    OutProbed(p.0, p.1)
  }

  /** The driver loop of `out_probe` over the generic loop's facts: resolved
      outputs stay resolved, success is every driver known and every output
      probed, and a failure is the first failing driver's outcome. */
  lemma OutDriversOutcome(reg: Registry, outs: seq<OutDev<Led.LedRule>>, groups: seq<(string, Json)>,
                          leds: string -> Led.LedSysfs)
    ensures var p := ProbeEach(outs, groups, OutDriverStep(reg, leds));
            && (Resolved(outs, reg) ==> Resolved(p.1, reg))
            && (p.0 == 0 <==>
                  (forall g :: 0 <= g < |groups| ==> KnownOut(groups[g])) &&
                  ConvertEach(OutInstances(groups), OutStep(reg, leds)).Ok?)
            && (p.0 == 0 ==> p.1 == outs + ConvertEach(OutInstances(groups), OutStep(reg, leds)).value)
            && (p.0 != 0 ==>
                  exists g :: 0 <= g < |groups| && ProbeEach(outs, groups[..g], OutDriverStep(reg, leds)).0 == 0 &&
                    p == OutDriverStep(reg, leds)(ProbeEach(outs, groups[..g], OutDriverStep(reg, leds)).1, groups[g]))
  {
    var step := OutDriverStep(reg, leds);
    OutDriverStepRegisters(reg, leds);
    ProbeEachOutcome(outs, groups, step, KnownOut, GroupOutputs, OutStep(reg, leds));
    var inv := (o: seq<OutDev<Led.LedRule>>) => Resolved(o, reg);
    assert forall o, g :: inv(o) ==> inv(step(o, g).1);
    if inv(outs) {
      ProbeEachPreserves(outs, groups, step, inv);
    }
    if ProbeEach(outs, groups, step).0 != 0 {
      ProbeEachFailure(outs, groups, step);
    }
  }

  /** `out_probe`: every configured output, registered in probe order, with
      every rule resolved against the input registry and no active rule yet.
      Success means every driver was known and every output probed, and then
      output k is what configured output k probed to, under its name. */
  function OutProbe(outsConfig: Json, reg: Registry, leds: string -> Led.LedSysfs): (r: OutProbed)
    ensures Resolved(r.outs, reg)
    ensures r.err == 0 <==>
              (forall g :: 0 <= g < |Members(outsConfig)| ==> KnownOut(Members(outsConfig)[g])) &&
              ConvertEach(OutInstances(Members(outsConfig)), OutStep(reg, leds)).Ok?
    ensures r.err == 0 ==> |r.outs| == |OutInstances(Members(outsConfig))|
    ensures r.err == 0 ==> forall k :: 0 <= k < |OutInstances(Members(outsConfig))| ==>
              && r.outs[k].name == OutInstances(Members(outsConfig))[k].0
              && ProbeOutInstance(reg, OutInstances(Members(outsConfig))[k].0, OutInstances(Members(outsConfig))[k].1, leds)
                 == Ok(r.outs[k])
  {
    ProbeOutDrivers(reg, [], Members(outsConfig), leds)
  }
}

=== FILE: reactor.dfy ===
/** The reactions of the running daemon: an input's watcher fires and the
    outputs that read that input are re-evaluated (`in_path_cb` in
    src/in-path.c, `in_udev_uddev_cb` in src/in-udev.c, both ending in
    `out_update` of src/out.c). The whole state is one value: the input
    registry and the LED outputs. Whether the kernel accepts a write to an
    LED file is a parameter, by output position. */
module Reactor {
  import opened Base
  import opened Uddev
  import opened InUdev
  import opened InPath
  import opened Inputs
  import opened Engine
  import opened Led
  import opened Json
  import OutProbe

  /** The daemon's state between two events. */
  datatype System = System(inputs: Registry, outputs: seq<OutDev<LedRule>>)

  /** Every rule of every output reads a registered input. Output probing
      establishes it, and nothing ever removes an input. */
  ghost predicate WellFormed(sys: System)
  {
    forall k, j :: 0 <= k < |sys.outputs| && 0 <= j < |sys.outputs[k].rules| ==>
      sys.outputs[k].rules[j].input < |sys.inputs|
  }

  /** The outputs probed against a registry only read that registry's
      inputs. */
  lemma ProbedSystemWellFormed(outsConfig: Json, reg: Registry, leds: string -> LedSysfs)
    ensures WellFormed(System(reg, OutProbe.OutProbe(outsConfig, reg, leds).outs))
  {
  }

  /** The engine's sampler over a registry: rule inputs are registry indices.
      A rule never names an input outside the registry (see `WellFormed`);
      such a reading is false. */
  function RegistrySampler(reg: Registry): (s: Sampler)
    ensures forall i, prop :: 0 <= i < |reg| ==> s(i, prop) == SampleInput(reg[i], prop)
    ensures forall i: nat, prop :: s(i, prop).SampleError? ==> i < |reg| && reg[i].kind.PathIn? && s(i, prop).err == -EINVAL
  {
    (i: nat, prop: Option<string>) => if i < |reg| then SampleInput(reg[i], prop) else Sampled(false)
  }

  /** The engine's applier for LED outputs: the rule's decoded payload (the
      "none"/0 state for the default) is applied to the LED at that position,
      and the status of `out_led_apply` is the result. */
  function LedApplier(accepts: (nat, Write) -> bool): (a: Applier<LedRule>)
    ensures forall k, rule :: a(k, rule) == 0 || a(k, rule) == -EIO
    ensures forall k, rule :: (forall w :: accepts(k, w)) ==> a(k, rule) == 0
    ensures forall k, rule :: a(k, rule) == Led.Apply(if rule.Some? then Some(rule.value.priv) else None, w => accepts(k, w)).err
  {
    (k: nat, rule: Option<Rule<LedRule>>) => Led.Apply(if rule.Some? then Some(rule.value.priv) else None, w => accepts(k, w)).err
  }

  /** Status, state afterwards, and events of one reaction. */
  datatype Reaction = Reaction(err: int, sys: System, trace: seq<Event>)

  /** `out_update(filter)` on the current state: the inputs are read as they
      are now, and only the outputs change. */
  function Refresh(sys: System, filter: Option<nat>, accepts: (nat, Write) -> bool): (r: Reaction)
    ensures r.sys.inputs == sys.inputs
    ensures |r.sys.outputs| == |sys.outputs|
    ensures forall k :: 0 <= k < |sys.outputs| && !Selected(sys.outputs[k], filter) ==> r.sys.outputs[k] == sys.outputs[k]
    ensures forall k :: 0 <= k < |sys.outputs| ==>
              r.sys.outputs[k].name == sys.outputs[k].name && r.sys.outputs[k].rules == sys.outputs[k].rules
    ensures r.err == Update(sys.outputs, filter, RegistrySampler(sys.inputs), LedApplier(accepts)).err
    ensures r.sys.outputs == Update(sys.outputs, filter, RegistrySampler(sys.inputs), LedApplier(accepts)).outs
    ensures r.trace == Update(sys.outputs, filter, RegistrySampler(sys.inputs), LedApplier(accepts)).trace
    ensures WellFormed(sys) ==> WellFormed(r.sys)
  {
    var u := Update(sys.outputs, filter, RegistrySampler(sys.inputs), LedApplier(accepts));
    Reaction(u.err, sys.(outputs := u.outs), u.trace)
  }

  /** `in_path_cb`: the stat watcher of path input `i` has a new result with
      `links` hard links; the outputs that read input `i` are updated. */
  function PathChanged(sys: System, i: nat, links: nat, accepts: (nat, Write) -> bool): (r: Reaction)
    requires i < |sys.inputs| && sys.inputs[i].kind.PathIn?
    ensures |r.sys.inputs| == |sys.inputs|
    ensures r.sys.inputs[i] == InDev(sys.inputs[i].name, PathIn(sys.inputs[i].kind.path, links))
    ensures forall j :: 0 <= j < |sys.inputs| && j != i ==> r.sys.inputs[j] == sys.inputs[j]
    ensures |r.sys.outputs| == |sys.outputs|
    ensures forall k :: 0 <= k < |sys.outputs| && !Uses(sys.outputs[k], i) ==> r.sys.outputs[k] == sys.outputs[k]
    ensures WellFormed(sys) ==> WellFormed(r.sys)
    ensures r == Refresh(sys.(inputs := sys.inputs[i := InDev(sys.inputs[i].name, PathIn(sys.inputs[i].kind.path, links))]),
                         Some(i), accepts)
  {
    var d := sys.inputs[i];
    Refresh(sys.(inputs := sys.inputs[i := InDev(d.name, PathIn(d.kind.path, links))]), Some(i), accepts)
  }

  /** `in_udev_uddev_cb` behind `uddev_ev_cb` for udev input `i`: `ev` is
      what the monitor delivered. An event that is missing or concerns
      another device changes nothing. For a related event the new snapshot
      is stored BEFORE the outputs reading input `i` are updated, so the
      update sees the device as the event left it. */
  function UdevEvent(sys: System, i: nat, ev: Option<Snapshot>, accepts: (nat, Write) -> bool): (r: Reaction)
    requires i < |sys.inputs| && sys.inputs[i].kind.UdevIn?
    ensures ev.None? || !Related(sys.inputs[i].kind.mon, ev.value) ==> r == Reaction(0, sys, [])
    ensures |r.sys.inputs| == |sys.inputs|
    ensures forall j :: 0 <= j < |sys.inputs| && j != i ==> r.sys.inputs[j] == sys.inputs[j]
    ensures r.sys.inputs[i].name == sys.inputs[i].name && r.sys.inputs[i].kind.UdevIn?
    ensures ev.Some? && Related(sys.inputs[i].kind.mon, ev.value) ==>
              r.sys.inputs[i].kind.mon == sys.inputs[i].kind.mon.(dev := ev)
    ensures |r.sys.outputs| == |sys.outputs|
    ensures forall k :: 0 <= k < |sys.outputs| && !Uses(sys.outputs[k], i) ==> r.sys.outputs[k] == sys.outputs[k]
    ensures WellFormed(sys) ==> WellFormed(r.sys)
    ensures ev.Some? && Related(sys.inputs[i].kind.mon, ev.value) ==>
              r == Refresh(sys.(inputs := sys.inputs[i := InDev(sys.inputs[i].name, UdevIn(sys.inputs[i].kind.mon.(dev := ev)))]),
                           Some(i), accepts)
  {
    var d := sys.inputs[i];
    var cb := (u: Uddev, snap: Snapshot) =>
      Refresh(sys.(inputs := sys.inputs[i := InDev(d.name, UdevIn(u.(dev := Some(snap))))]), Some(i), accepts);
    match OnEvent(d.kind.mon, ev, cb)
    case Ignored => Reaction(0, sys, [])
    case Handled(after, reaction) =>
      Reaction(reaction.err, reaction.sys.(inputs := reaction.sys.inputs[i := InDev(d.name, UdevIn(after))]), reaction.trace)
  }

  /** No rule of any output can fail to sample: every rule reads an input
      whose reading for the rule's property succeeds. */
  ghost predicate SamplesCleanly(sys: System)
  {
    forall k, j :: 0 <= k < |sys.outputs| && 0 <= j < |sys.outputs[k].rules| ==>
      RegistrySampler(sys.inputs)(sys.outputs[k].rules[j].input, sys.outputs[k].rules[j].prop).Sampled?
  }

  /** With every sample succeeding and the kernel accepting every write, a
      refresh succeeds, and a selected output none of whose rules matches
      falls back to its default state; one whose rule `m` is the first to
      match gets rule `m`. Either way the trace holds that output's samples
      up to the deciding rule and then its one apply. */
  lemma RefreshSettles(sys: System, filter: Option<nat>, accepts: (nat, Write) -> bool, k: nat)
    requires SamplesCleanly(sys)
    requires forall n, w :: accepts(n, w)
    requires k < |sys.outputs| && Selected(sys.outputs[k], filter)
    ensures Refresh(sys, filter, accepts).err == 0
    ensures Scan(sys.outputs[k].rules, RegistrySampler(sys.inputs), 0).Default? ==>
              Refresh(sys, filter, accepts).sys.outputs[k].active.None?
    ensures Scan(sys.outputs[k].rules, RegistrySampler(sys.inputs), 0).Match? ==>
              Refresh(sys, filter, accepts).sys.outputs[k].active == Some(Scan(sys.outputs[k].rules, RegistrySampler(sys.inputs), 0).index)
    ensures Scan(sys.outputs[k].rules, RegistrySampler(sys.inputs), 0).Default? ==>
              EventsOf(Refresh(sys, filter, accepts).trace, k)
                == Samples(k, |sys.outputs[k].rules|) + [AppliedRule(k, None)]
    ensures Scan(sys.outputs[k].rules, RegistrySampler(sys.inputs), 0).Match? ==>
              var m := Scan(sys.outputs[k].rules, RegistrySampler(sys.inputs), 0).index;
              EventsOf(Refresh(sys, filter, accepts).trace, k) == Samples(k, m + 1) + [AppliedRule(k, Some(m))]
  {
    UpdateEvents(sys.outputs, filter, RegistrySampler(sys.inputs), LedApplier(accepts));
    var sample := RegistrySampler(sys.inputs);
    var apply := LedApplier(accepts);
    forall n | 0 <= n < |sys.outputs|
      ensures !Fails(sys.outputs, filter, sample, apply, n)
    {
      NoFailure(sys, accepts, n);
    }
    assert FirstFailure(sys.outputs, filter, sample, apply, 0).None?;
    assert Reached(sys.outputs, filter, sample, apply, 0, k);
    NoFailure(sys, accepts, k);
  }

  /** Under the same conditions no output's own update fails. */
  lemma NoFailure(sys: System, accepts: (nat, Write) -> bool, n: nat)
    requires SamplesCleanly(sys)
    requires forall m, w :: accepts(m, w)
    requires n < |sys.outputs|
    ensures UpdateOne(sys.outputs[n], n, RegistrySampler(sys.inputs), LedApplier(accepts)).err == 0
  {
  }

  /** Replacing input `i` by one that samples successfully wherever it did
      keeps every rule sampling cleanly. */
  lemma StillSamplesCleanly(sys: System, i: nat, d: InDev)
    requires i < |sys.inputs| && WellFormed(sys) && SamplesCleanly(sys)
    requires forall prop :: SampleInput(sys.inputs[i], prop).Sampled? ==> SampleInput(d, prop).Sampled?
    ensures SamplesCleanly(sys.(inputs := sys.inputs[i := d]))
  {
  }

  /** A watched path disappearing turns off every LED whose rules all read
      that path's presence (no property or "present", not inverted). */
  lemma PathGoneTurnsOff(sys: System, i: nat, accepts: (nat, Write) -> bool, k: nat)
    requires i < |sys.inputs| && sys.inputs[i].kind.PathIn?
    requires WellFormed(sys) && SamplesCleanly(sys)
    requires forall n, w :: accepts(n, w)
    requires k < |sys.outputs| && Uses(sys.outputs[k], i)
    requires forall j :: 0 <= j < |sys.outputs[k].rules| ==>
               && sys.outputs[k].rules[j].input == i && !sys.outputs[k].rules[j].invert
               && (sys.outputs[k].rules[j].prop.None? || sys.outputs[k].rules[j].prop == Some("present"))
    ensures PathChanged(sys, i, 0, accepts).err == 0
    ensures PathChanged(sys, i, 0, accepts).sys.outputs[k].active.None?
  {
    var d := sys.inputs[i];
    var d' := InDev(d.name, PathIn(d.kind.path, 0));
    StillSamplesCleanly(sys, i, d');
    var sys' := sys.(inputs := sys.inputs[i := d']);
    var o := sys.outputs[k];
    var sample := RegistrySampler(sys'.inputs);
    forall j | 0 <= j < |o.rules|
      ensures Misses(o.rules[j], sample)
    {
      assert sample(o.rules[j].input, o.rules[j].prop) == PathSample(0, o.rules[j].prop);
    }
    ScanDecides(o.rules, sample, 0, Default);
    RefreshSettles(sys', Some(i), accepts, k);
  }

  /** A udev device going away turns off every LED whose rules all read
      that device's presence without inverting it: the update triggered by
      the removal already sees the device as absent. */
  lemma RemovalTurnsOff(sys: System, i: nat, ev: Snapshot, accepts: (nat, Write) -> bool, k: nat)
    requires i < |sys.inputs| && sys.inputs[i].kind.UdevIn?
    requires Related(sys.inputs[i].kind.mon, ev) && ev.action == Some("remove")
    requires WellFormed(sys) && SamplesCleanly(sys)
    requires forall n, w :: accepts(n, w)
    requires k < |sys.outputs| && Uses(sys.outputs[k], i)
    requires forall j :: 0 <= j < |sys.outputs[k].rules| ==> sys.outputs[k].rules[j].input == i && !sys.outputs[k].rules[j].invert
    ensures UdevEvent(sys, i, Some(ev), accepts).err == 0
    ensures UdevEvent(sys, i, Some(ev), accepts).sys.outputs[k].active.None?
  {
    var d := sys.inputs[i];
    var sys' := sys.(inputs := sys.inputs[i := InDev(d.name, UdevIn(d.kind.mon.(dev := Some(ev))))]);
    assert !Present(sys'.inputs[i].kind.mon);
    StillSamplesCleanly(sys, i, sys'.inputs[i]);
    var o := sys.outputs[k];
    var sample := RegistrySampler(sys'.inputs);
    forall j | 0 <= j < |o.rules|
      ensures Misses(o.rules[j], sample)
    {
      RemovedReadsFalse(sys'.inputs[i].kind.mon, o.rules[j].prop);
    }
    ScanDecides(o.rules, sample, 0, Default);
    RefreshSettles(sys', Some(i), accepts, k);
  }

  /** A udev device appearing turns on an LED whose first rule reads that
      device's presence (no property, not inverted): that rule is the one
      applied. */
  lemma ArrivalAppliesFirstRule(sys: System, i: nat, ev: Snapshot, accepts: (nat, Write) -> bool, k: nat)
    requires i < |sys.inputs| && sys.inputs[i].kind.UdevIn?
    requires Related(sys.inputs[i].kind.mon, ev) && ev.action != Some("remove")
    requires WellFormed(sys) && SamplesCleanly(sys)
    requires forall n, w :: accepts(n, w)
    requires k < |sys.outputs| && |sys.outputs[k].rules| >= 1
    requires sys.outputs[k].rules[0].input == i && sys.outputs[k].rules[0].prop.None? && !sys.outputs[k].rules[0].invert
    ensures UdevEvent(sys, i, Some(ev), accepts).err == 0
    ensures UdevEvent(sys, i, Some(ev), accepts).sys.outputs[k].active == Some(0)
  {
    var d := sys.inputs[i];
    var sys' := sys.(inputs := sys.inputs[i := InDev(d.name, UdevIn(d.kind.mon.(dev := Some(ev))))]);
    assert Present(sys'.inputs[i].kind.mon);
    StillSamplesCleanly(sys, i, sys'.inputs[i]);
    var o := sys.outputs[k];
    var sample := RegistrySampler(sys'.inputs);
    assert Hits(o.rules[0], sample);
    ScanDecides(o.rules, sample, 0, Match(0));
    assert Uses(o, i);
    RefreshSettles(sys', Some(i), accepts, k);
  }
}

=== FILE: uddev.dfy ===
/** One hardware device watched through udev (src/uddev.c): a cached device
    snapshot that hotplug events replace, presence derived from it, and
    attribute writes guarded by presence. The udev library itself (context,
    netlink monitor, reference counting) is replaced by the values it hands
    back. */
module Uddev {
  import opened Base

  /** A `struct udev_device` as the daemon sees it: its sysname, the action
      of the event that delivered it (none for a device found by lookup), and
      its sysfs attributes. */
  datatype Snapshot = Snapshot(sysname: Option<string>, action: Option<string>, attrs: map<string, string>)

  /** `struct uddev`: what to watch, and the current snapshot, if any. */
  datatype Uddev = Uddev(subsystem: string, sysname: string, dev: Option<Snapshot>)

  /** `uddev_present`: a snapshot exists and it was not delivered by a
      "remove" event. */
  predicate Present(u: Uddev)
  {
    match u.dev
    case None => false
    case Some(d) =>
      match d.action
      case None => true
      case Some(a) => a != "remove"
  }

  /** Size of the buffer `uddev_set_sysfs` formats the value into. */
  const VALUE_BUFFER: nat := 0x100

  datatype SysfsWrite = SysfsWrite(attr: string, value: string)

  /** The write performed, if any, and the status returned. */
  datatype SetResult = SetResult(err: int, write: Option<SysfsWrite>)

  /** `uddev_set_sysfs`: on an absent device nothing is written and -EINVAL is
      returned; otherwise the formatted `text`, cut to what fits the buffer
      with its terminator, is written to `attr` and the library's status
      `writeErr` is passed back. */
  function SetSysfs(u: Uddev, attr: string, text: string, writeErr: int): (r: SetResult)
    ensures r.write.None? <==> !Present(u)
    ensures !Present(u) ==> r.err == -EINVAL
    ensures Present(u) ==> r.err == writeErr
    ensures r.write.Some? ==> r.write.value.attr == attr
    ensures r.write.Some? ==> |r.write.value.value| < VALUE_BUFFER && r.write.value.value <= text
    ensures r.write.Some? && |text| < VALUE_BUFFER ==> r.write.value.value == text
    ensures r.write.Some? && |text| >= VALUE_BUFFER ==> r.write.value.value == text[..VALUE_BUFFER - 1]
  {
    if !Present(u) then SetResult(-EINVAL, None)
    else
      var n := if |text| < VALUE_BUFFER then |text| else VALUE_BUFFER - 1;
      SetResult(writeErr, Some(SysfsWrite(attr, text[..n])))
  }

  /** What was written fits the buffer, so writing it again to a device
      that is still present writes it unchanged. */
  lemma SetSysfsRewrite(u: Uddev, attr: string, text: string, writeErr: int)
    requires Present(u)
    ensures var w := SetSysfs(u, attr, text, writeErr).write.value.value;
            SetSysfs(u, attr, w, writeErr) == SetResult(writeErr, Some(SysfsWrite(attr, w)))
  {
  }

  /** Whether a monitor event concerns this device: it must carry a sysname
      equal to the configured one. */
  predicate Related(u: Uddev, ev: Snapshot)
  {
    ev.sysname == Some(u.sysname)
  }

  /** The outcome of one readable monitor socket. */
  datatype Handled<T> = Ignored | Handled(after: Uddev, result: T)

  /** `uddev_ev_cb`: `ev` is what the monitor delivered (None when nothing
      could be received). Unrelated events are dropped without invoking the
      callback; for a related event the callback runs first, seeing the
      previous state, and then the event's device becomes the snapshot. */
  function OnEvent<T>(u: Uddev, ev: Option<Snapshot>, cb: (Uddev, Snapshot) -> T): (r: Handled<T>)
    ensures r.Ignored? <==> ev.None? || !Related(u, ev.value)
    ensures r.Handled? ==> r.result == cb(u, ev.value)
    ensures r.Handled? ==> r.after.subsystem == u.subsystem && r.after.sysname == u.sysname
    ensures r.Handled? ==> r.after.dev == ev
  {
    match ev
    case None => Ignored
    case Some(d) =>
      if d.sysname.None? || d.sysname.value != u.sysname then Ignored
      else Handled(u.(dev := Some(d)), cb(u, d))
  }

  /** After an accepted event, presence is decided by that event alone:
      whatever the device looked like before, it is absent exactly when the
      event was a removal. */
  lemma PresenceAfterEvent<T>(u: Uddev, ev: Snapshot, cb: (Uddev, Snapshot) -> T)
    requires Related(u, ev)
    ensures OnEvent(u, Some(ev), cb).Handled?
    ensures Present(OnEvent(u, Some(ev), cb).after) <==> ev.action != Some("remove")
  {
  }

  /** What udev reports at start-up: whether a context and a kernel monitor
      with the subsystem filter can be set up, and the attributes of every
      device that currently exists, by (subsystem, sysname). */
  datatype UdevEnv = UdevEnv(
    contextOk: bool,
    devices: map<(string, string), map<string, string>>,
    monitorOk: bool,
    filterOk: bool)

  /** `uddev_init`: any failure to set up udev is -ENOSYS; a device that does
      not exist yet is not an error, it just starts out absent. A device
      found by lookup carries no action, so it is present. */
  function Init(subsystem: string, sysname: string, env: UdevEnv): (r: Result<Uddev>)
    ensures r.Ok? <==> env.contextOk && env.monitorOk && env.filterOk
    ensures r.Err? ==> r.err == -ENOSYS
    ensures r.Ok? ==> r.value.subsystem == subsystem && r.value.sysname == sysname
    ensures r.Ok? ==> (Present(r.value) <==> (subsystem, sysname) in env.devices)
    ensures r.Ok? && (subsystem, sysname) in env.devices ==>
              r.value.dev == Some(Snapshot(Some(sysname), None, env.devices[(subsystem, sysname)]))
  {
    if !env.contextOk then Err(-ENOSYS)
    else
      var dev :=
        if (subsystem, sysname) in env.devices
        then Some(Snapshot(Some(sysname), None, env.devices[(subsystem, sysname)]))
        else None;
      if !env.monitorOk || !env.filterOk then Err(-ENOSYS)
      else Ok(Uddev(subsystem, sysname, dev))
  }
}
